=== FILE: README.md ===
# Equavu HR: the application status lifecycle in Dafny

This project models the core of the Equavu HR backend, a Django service.
Candidates register an application with a resume. Admins move the
application through a fixed set of statuses, and every move is kept in an
audit trail of status changes.

The model has seven modules:

- `Wrappers` (wrappers.dfy): `Option` and `Result`.
- `Text` (text.dfy): the few string operations the code uses.
  - `AfterLast` is `str.split(c)[-1]`, and `os.path.basename` when `c` is '/'.
  - `Lower` is lower-casing (ASCII only).
  - `EndsWith` is `str.endswith`.
- `Models` (models.dfy): the two enumerations and the `Candidate` and `StatusChange` rows. Also their string forms, their newest-first ordering, and `resume_upload_path`.
- `AuditLog` (audit.dfy): the audit trail as a specification.
  - `InitialEntry` is the entry written at registration.
  - `Record` is the entry an admin transition appends.
  - `Replay` is the history a run of transitions produces.
- `Serializers` (serializers.dfy):
  - the registration validators, which report every failing field together as a map from field to reasons;
  - the status-update validator;
  - the 201 reply of a registration and the candidate detail representation.
- `Views` (views.dfy): the pure decisions of the views. These are the admin check, the request defaults of a status update, the department filter with newest-first order, and the resume download reply.
- `Lifecycle` (store.dfy): the `Store` class.
  - It holds the candidate table, each candidate's history (oldest first), the registration order and a clock.
  - `Register` (`perform_create`) and `UpdateStatus` (`StatusUpdateView.update`) are methods that change it.
  - The read endpoints are functions of it.

The class invariant `Valid()` states the following:

- Each history is exactly the registration entry followed by one entry per admin transition, in time order.
- Every entry's previous status is the new status of the entry before it.
- The candidate's `current_status` is the newest entry's new status, and `updated_at` is that entry's time.
- Every stored resume path has the shape the upload path builds.
- E-mail addresses are unique.
- The registration order lists every candidate, oldest first.

`Register` validates the form and then calls `AddCandidate`, which performs its two writes: the row and the registration entry. `UpdateStatus` checks the request and then calls `ApplyTransition`, which performs its two writes: the history entry and the row's new status. All four methods keep `Valid()` and state their whole new state.

Some details of the code that the model keeps:

- The registration entry's `admin_user` is blank, because the registration view does not set it.
- The download's Content-Disposition names the stored base name `<uuid>.<ext>`, not the name the file was uploaded under.
- The download chooses the content type with a case-sensitive ".pdf" test, so an accepted "CV.PDF" is served as DOCX. The case-insensitive rule is modelled separately, as the correction under "## Findings".
- The 201 reply of a registration holds the six accepted fields and no `id`.
- `ApplyTransition` writes the history entry first and then the candidate row, as the code does. Both writes happen inside that one method, so only the state after both is visible (see "## Left out").

The UUIDs the code draws are parameters, and so is whether the stored resume file exists. Wall-clock time is the store's `clock` counter: each successful write reads it and advances it by one tick, while refused requests and the read endpoints leave it alone. Both the new history entry and the new `updated_at` of a status update take that tick.

## Model

| member | source | states |
|---|---|---|
| Models.DepartmentValue | equavu_hr_app/models.py:8-11 | a department is stored as one of the three choice values |
| Models.StatusValue | equavu_hr_app/models.py:14-19 | a status is stored as one of the five choice values |
| Models.DepartmentFromValue | equavu_hr_app/models.py:8-11 | a text names a department exactly when it is one of IT, HR, FINANCE, and then it is that department's own value |
| Models.StatusFromValue | equavu_hr_app/models.py:14-19 | a text names a status exactly when it is one of the five values, and then it is that status's own value |
| Models.EnumerationsAreClosed | equavu_hr_app/models.py:8-19 | there are exactly 3 departments and 5 statuses, with distinct values; distinct members have distinct values |
| Models.CandidateTextDistinguishesDepartments | equavu_hr_app/models.py:56-57 | `str(candidate)` is "<full_name> - <department>": same name, different department gives a different text |
| Models.StatusChangeTextDistinguishesStatuses | equavu_hr_app/models.py:80-81 | `str(status_change)` shows the new status: entries of one candidate at one time with different new statuses print differently |
| Models.ReverseChangesNewestFirst | equavu_hr_app/models.py:84 | read backwards, a history kept oldest first is newest first, with the same entries |
| Models.UploadPathShape | equavu_hr_app/models.py:22-28 | the upload path is `resumes/<folder>/<fileUuid>.<ext>`, where ext is the text after the upload name's last '.' and folder is the instance id when there is one, else the fresh UUID; its base name is `<fileUuid>.<ext>`, whose extension is ext again |
| Models.JoinedBaseName | equavu_hr_app/models.py:28 | the base name of `dir/uuid.ext` is `uuid.ext`, and the extension of that is `ext` |
| Text.AfterLastFacts | equavu_hr_app/models.py:24 | `split(c)[-1]` is a suffix free of `c`: either the whole string, when `c` does not occur, or the text after a `c` |
| Text.AfterLastUnique | equavu_hr_app/models.py:24 | whatever follows the last separator is what `split(c)[-1]` returns |
| AuditLog.InitialEntry | equavu_hr_app/views.py:67-72 | the registration entry has no previous status and new status SUBMITTED |
| AuditLog.Record | equavu_hr_app/views.py:147-153 | a transition appends exactly one entry and leaves the earlier ones alone; its previous status is the status before, and its new status, feedback, actor and time are those of the request |
| AuditLog.RecordKeepsChained | equavu_hr_app/views.py:147-157 | appending a transition keeps every entry's previous status equal to the new status of the entry before it |
| AuditLog.Replay | equavu_hr_app/views.py:147-153 | after N transitions the history holds N + 1 entries |
| AuditLog.ReplayShape | equavu_hr_app/views.py:137-167 | after registration and N transitions, the history is the registration entry followed by one entry per transition with its status, feedback, actor and time; it is chained, its newest status is the last one requested (SUBMITTED if none), and it is in time order when the requests were |
| Serializers.SuffixOfLastComponent | equavu_hr_app/serializers.py:51-53 | the extension the check looks at is the suffix of the last path component, as `pathlib` computes it |
| Serializers.CheckedExtensionIsStoredExtension | equavu_hr_app/serializers.py:51-53 | an extension the check sees is the lower-cased text after the name's last '.', which the upload path keeps, and it holds no '/' |
| Serializers.FullNameErrors | equavu_hr_app/models.py:39 | full_name is accepted exactly when it is present, not blank, at most 255 characters and free of the NUL character; a long name holding NUL gets both errors, length first |
| Serializers.EmailErrors | equavu_hr_app/models.py:40 | email is accepted exactly when it is present, not blank, at most 254 characters, not already registered and free of NUL; a long, taken address holding NUL gets all three errors, "not unique" first |
| Serializers.DateOfBirthErrors | equavu_hr_app/models.py:41 | date_of_birth is accepted exactly when it is present |
| Serializers.YearsOfExperienceErrors | equavu_hr_app/serializers.py:68-72 | years_of_experience is accepted exactly when it is present and at least 0; a negative value is rejected |
| Serializers.DepartmentErrors | equavu_hr_app/serializers.py:74-79 | department is accepted exactly when it is one of IT, HR, FINANCE |
| Serializers.ResumeErrors | equavu_hr_app/serializers.py:51-66 | the resume is accepted exactly when it is present, its extension in any case is pdf or docx, and its size is at most the maximum; the extension check comes first |
| Serializers.ValidateRegistration | equavu_hr_app/serializers.py:49-79 | a registration is accepted exactly when no field has an error, and the accepted values are the ones sent; otherwise the errors name exactly the failing fields, each with its own reasons |
| Serializers.EveryFieldValid | equavu_hr_app/serializers.py:49-79 | a form that no field rejects has every value present and acceptable |
| Serializers.MissingFieldsReportedTogether | equavu_hr_app/serializers.py:49-58 | errors are collected: a form missing both date_of_birth and resume is rejected naming both |
| Serializers.ResumeSizeBoundary | equavu_hr_app/serializers.py:60-66 | a resume of exactly the maximum size passes, and one byte more is rejected as too large |
| Serializers.StatusErrors | equavu_hr_app/serializers.py:84 | status is accepted exactly when it is sent, not null and one of the five values; a missing status is "required" and a null one "may not be null" |
| Serializers.FeedbackErrors | equavu_hr_app/serializers.py:85 | feedback is accepted exactly when it is left out or sent as text free of NUL; a null feedback is refused as null |
| Serializers.ValidateStatusUpdate | equavu_hr_app/serializers.py:82-92 | an update is valid exactly when status is an accepted value and feedback is acceptable; a valid update carries the status and the feedback as sent, or none; otherwise each failing field, and only those, is reported with its own reasons |
| Serializers.FeedbackRefusals | equavu_hr_app/serializers.py:85 | with a valid status, a null feedback and one holding NUL are each refused on `feedback` alone; a null status and a null feedback are reported together |
| Serializers.CreatedBody | equavu_hr_app/serializers.py:55-58 | as written, the 201 body of a registration holds exactly the six accepted fields, and no "id" |
| Serializers.CreatedBodyKeepsFields | equavu_hr_app/serializers.py:55-58 | the 201 body determines every accepted field of the new candidate: equal bodies mean equal names, addresses, dates, years, departments and resume names |
| Serializers.CreatedBodyWithId | equavu_hr_app/serializers.py:55-58 | the corrected 201 body holds the same six fields plus "id", the new candidate's identifier |
| Serializers.DetailOf | equavu_hr_app/serializers.py:35-46 | the detail shows the candidate's id, status, department and display labels, plus the history newest first, with the same number of entries and the same entries; its first entry agrees with the status shown |
| Views.AdminGate | equavu_hr_app/views.py:49-50 | the admin check passes exactly for an X-ADMIN header equal to "1"; an absent header and values such as "", "true", "01" or "1 " are refused |
| Views.UpdateDefaults | equavu_hr_app/views.py:143-144 | an absent feedback is recorded as "", an absent X-ADMIN-USER as "Admin", and a value that is sent is recorded as sent |
| Views.FilterNewestFirst | equavu_hr_app/views.py:101-109 | the list holds exactly the candidates that pass the department filter; an absent or empty filter passes everyone |
| Views.FilterNewestFirstOrder | equavu_hr_app/views.py:99 | candidates given oldest first come out newest first |
| Views.NoFilterListsAll | equavu_hr_app/views.py:104-109 | without a filter, or with an empty one, the list is every candidate, newest first |
| Views.UnknownDepartmentListsNone | equavu_hr_app/views.py:105-107 | a non-empty filter that is not a department value lists nobody |
| Views.ContentTypeAsWritten | equavu_hr_app/views.py:202-203 | as written, the content type is PDF exactly when the base name ends with ".pdf" in that case, and DOCX otherwise |
| Views.ContentType | equavu_hr_app/views.py:202-203 | the corrected content type is PDF exactly when the base name ends with ".pdf" in any case, and DOCX otherwise |
| Views.ContentTypeAgreesOnLowerCase | equavu_hr_app/views.py:202-203 | the two agree on lower-case names, and a name the written test calls PDF is PDF for the corrected one |
| Views.DispositionRoundTrip | equavu_hr_app/views.py:207 | the Content-Disposition header `attachment; filename="<name>"` announces exactly the name it was built from |
| Views.ResumeDownload | equavu_hr_app/views.py:180-207 | 404 "no resume" exactly when the name is empty; 404 "file not found" exactly when there is a name but no file; otherwise the file, named by its base name, typed PDF exactly when that name ends with ".pdf" in lower case, and DOCX otherwise |
| Views.AsWrittenTypeOfAcceptedExtension | equavu_hr_app/views.py:202-203 | as written, `<uuid>.<ext>` with an accepted extension is typed PDF exactly when the extension is "pdf" in lower case; "PDF" or "Pdf" give DOCX |
| Views.AcceptedResumeServedAsWritten | equavu_hr_app/views.py:199-207 | as written, an accepted upload, once stored, is served under `<fileUuid>.<ext>`, as PDF exactly when its extension was "pdf" in lower case |
| Views.CorrectedResumeDownload | equavu_hr_app/views.py:202-203 | the corrected download gives the same replies as the written one, except that the file is typed PDF exactly when its base name ends with ".pdf" in any case |
| Views.ContentTypeOfAcceptedExtension | equavu_hr_app/views.py:202-203 | with the corrected rule, `<uuid>.<ext>` with an accepted extension is typed PDF exactly when the extension is pdf in any case, and DOCX otherwise |
| Views.AcceptedResumeServedWithItsType | equavu_hr_app/views.py:199-207 | with the corrected rule, an accepted upload, once stored, is served under `<fileUuid>.<ext>` as PDF when it was accepted as a pdf and as DOCX when it was accepted as a docx |
| Views.UpperCasePdfServedAsDocx | equavu_hr_app/views.py:202-203 | as written, "CV.PDF" passes the extension check, is stored as `<fileUuid>.PDF`, and is then served as DOCX |
| Views.UpperCaseUploadAccepted | equavu_hr_app/serializers.py:51-53 | "CV.PDF" has the extension "PDF", which the check reads as "pdf" |
| Lifecycle.TrackedRecord | equavu_hr_app/views.py:147-157 | appending a transition, and updating the row's status and updated_at with it, keeps the row consistent with its history |
| Lifecycle.InvAfterRegister | equavu_hr_app/views.py:62-74 | adding a fresh candidate with an unused e-mail address, its registration entry and an upload-shaped resume path keeps the store invariant |
| Lifecycle.StoredAndUniqueAfterRegister | equavu_hr_app/models.py:40 | a new candidate whose address is unused keeps e-mail addresses unique and resumes stored as built |
| Lifecycle.InvAfterUpdate | equavu_hr_app/views.py:147-157 | recording a transition for a stored candidate keeps the store invariant |
| Lifecycle.StoredAsOfUpload | equavu_hr_app/models.py:22-28 | an accepted upload is stored at `resumes/<id>/<fileUuid>.<ext>`, with no separator in the UUID or the extension |
| Lifecycle.Store.Register | equavu_hr_app/views.py:62-74 | an invalid form is answered 400 with its errors and changes nothing; a valid one adds the candidate with the values sent, status SUBMITTED, the upload path as its resume, and exactly one history entry (the registration entry), and is answered with the six accepted fields and no id; nothing else changes |
| Lifecycle.Store.AddCandidate | equavu_hr_app/views.py:64-72 | the row is added and its history is exactly the registration entry, at the current tick; no other candidate changes, and the invariant is kept |
| Lifecycle.Store.UpdateStatus | equavu_hr_app/views.py:137-167 | no admin header gives 403, an unknown id 404 and an invalid body 400, each changing nothing; otherwise exactly one entry is appended, recording the candidate's current status as the previous one, the requested status, the feedback ("" if absent) and the actor ("Admin" if absent); the candidate takes the new status, no other candidate changes, and the reply shows the updated detail |
| Lifecycle.Store.ApplyTransition | equavu_hr_app/views.py:147-157 | one entry is appended whose previous status is the row's current status; the row takes the new status with `updated_at` the current tick; no other candidate or history changes, and the invariant is kept |
| Lifecycle.Store.ListCandidates | equavu_hr_app/views.py:91-109 | 403 exactly without the admin header; otherwise exactly the stored candidates that pass the filter, newest first, and all of them when the filter is absent or empty |
| Lifecycle.Store.InRegistrationOrder | equavu_hr_app/views.py:102 | every stored candidate appears, oldest first |
| Lifecycle.Store.HistoryFacts | equavu_hr_app/views.py:147-157 | a stored candidate's history is chained, starts with its registration entry, is in time order, and its newest status is the row's current status |
| Lifecycle.Store.StatusOf | equavu_hr_app/views.py:78-87 | 404 exactly for an unknown id; otherwise the candidate's detail with every stored history entry, newest first, whose first entry shows the current status, whose last is the registration entry, and where each previous status is the next older entry's new status |
| Lifecycle.Store.AdminDetail | equavu_hr_app/views.py:113-122 | 403 exactly without the admin header, otherwise the same reply as the status endpoint |
| Lifecycle.Store.DownloadResume | equavu_hr_app/views.py:171-208 | 403 exactly without the admin header, and 404 exactly for an unknown id; a stored candidate never gets "no resume", and gets 404 "file not found" exactly when its file is missing; otherwise the file is served under its base name, as PDF exactly when that name ends with ".pdf" in lower case, that is, when the stored extension is exactly "pdf" |
| Lifecycle.Store.CorrectedReplyFindsCandidate | frontend/src/components/CandidateRegistration.js:59 | the identifier the corrected 201 body carries is one the status endpoint finds, showing that candidate's own status |

## Left out

- The HTTP layer is not modelled: request parsing, pagination, status codes beyond the four reply kinds, and logging. A reply is a `Response` value.
- `Lifecycle.Store.Register`: the `resume` entry of the 201 body is the stored name. The code renders it as the file's URL under the media prefix, and that rendering is not modelled.
- File storage and I/O are not modelled: saving the upload, `os.path.exists`, `open` and `FileResponse`. Whether the file exists is a boolean input. The storage backend's renaming of clashing names is not modelled either.
- The 500 reply of the resume download, for an exception while reading, is left out, because it depends on I/O.
- UUID generation and wall-clock time are left out. UUIDs are parameters, and times are ticks of a counter that each successful write advances once.
- Database transactions and concurrent requests are left out. Requests run one at a time, and each method applies all of its writes.
- `Lifecycle.Store.UpdateStatus`: the code makes its two writes with no transaction, so a failure between them would leave a history entry whose candidate row still shows the old status. The model makes both writes inside one method, so that in-between state is never visible and a partial update is not modelled.
- Ids of `StatusChange` rows are left out. The detail reply shows them, but they are opaque database keys, and no property depends on them.
- `Serializers.EmailErrors`: Django's e-mail syntax check is not modelled, only presence, length, uniqueness and the NUL rule.
- `Serializers.FullNameErrors`: the framework's refusal of lone surrogate characters is not modelled. Dafny characters are Unicode scalar values, so a lone surrogate cannot occur in a model string. The same holds for `Serializers.EmailErrors` and `Serializers.FeedbackErrors`.
- `Serializers.ValidateStatusUpdate`: a request body member is text, left out or null. Other JSON values, such as a number the framework turns into text, are not modelled.
- `Serializers.ValidateRegistration`: registration fields are present or missing only. A registration sent as a JSON body with a null member is not modelled. Such a body cannot carry the resume file, so it is refused either way, but a null field would be reported as "may not be null" rather than as missing.
- `Serializers.FullNameErrors`, `Serializers.EmailErrors`, `Serializers.ValidateStatusUpdate`: leading and trailing whitespace trimming of text fields is not modelled. The framework trims first, so a name or address of only spaces, such as "   ", is refused as blank there but accepted here, and a feedback of only spaces is recorded as "" there but as sent here.
- The framework's rejection of an empty uploaded file is not modelled.
- The upper bound of the years-of-experience column is not modelled, because integers are unbounded here.
- `Text.Lower`: lower-casing covers ASCII letters only, not Unicode case folding.
- `Lifecycle.Store.Register` requires a candidate id not already in use. The code draws a fresh UUID, so a clash is not a case it handles.
- PUT and PATCH of the status endpoint behave alike, because the overridden update ignores partial updates. There is one method for both.
- The field selection of the list serializer is not modelled: the list reply is the `Candidate` rows themselves.
- `Lifecycle.Store.ListCandidates`: the `ordering` query parameter is not modelled. The list view's ordering filter has no restricting field list, so a client can reorder the list, for example with `?ordering=full_name`. The model always lists newest first, which is the default order.
- Text comparisons in queries are modelled as exact. The database is created with the `utf8mb4_unicode_ci` collation (create_db.py:21), which ignores case and trailing spaces, and this collation is not modelled.
- `Views.UnknownDepartmentListsNone`: this holds under exact comparison only. Under that collation, a filter such as "it" also lists the IT candidates.
- `Serializers.EmailErrors`: uniqueness is checked by exact comparison. Under that collation, "A@x.com" and "a@x.com" count as the same address.
- `Lifecycle.EmailsUnique`: this states exact-text uniqueness, which is weaker than the case-insensitive uniqueness the database enforces.
- Column length limits on values that no validator checks are not modelled. In particular, the X-ADMIN-USER header is recorded as `admin_user` without a check against its max_length of 255 (models.py:77).
- equavu_hr_app/storage.py, equavu_hr_app/email_utils.py, the URL routing, the database setup script and the frontend are not part of this model. The setup script is cited only for its collation, and the registration screen only for its use of the 201 reply.

## Findings

| source | as written | input that shows it | evidently intended | confidence | as-written member | corrected member |
|---|---|---|---|---|---|---|
| equavu_hr_app/views.py:202-203 | the download picks PDF only when the stored base name ends with ".pdf" in lower case. The upload check accepts the extension in any case (serializers.py:51-53), and the upload path keeps it as sent (models.py:24) | a resume uploaded as "CV.PDF" is accepted, stored as `<uuid>.PDF`, and served as `application/vnd.openxmlformats-officedocument.wordprocessingml.document` | a resume accepted as a pdf is served as `application/pdf`, whatever the case of its extension | not executed | Views.UpperCasePdfServedAsDocx | Views.AcceptedResumeServedWithItsType |
| equavu_hr_app/serializers.py:55-58 | the 201 reply of a registration shows only the six accepted fields. The registration screen reads `id` from it and shows that to the candidate as their status-lookup identifier (frontend/src/components/CandidateRegistration.js:59,94) | any valid registration: the reply has no "id" entry, so the screen shows an empty identifier | the reply carries the new candidate's identifier, which the status endpoint finds | not executed | Serializers.CreatedBody | Lifecycle.Store.CorrectedReplyFindsCandidate |

=== FILE: audit.dfy ===
/** The status audit trail of one candidate, as a specification: the entry
    written at registration, the entry each admin transition appends, and the
    whole history that a run of transitions produces. Histories are kept
    oldest first; the newest entry is the last one. */
module AuditLog {
  import opened Wrappers
  import opened Models

  /** Feedback of the entry written at registration. */
  const RegistrationFeedback: string := "Application submitted successfully."

  /** admin_user of the entry written at registration: the registration view
      does not set it, so the field keeps its blank default. */
  const RegistrationActor: string := ""

  /** The entry written when a candidate registers. */
  function InitialEntry(at: nat): (e: StatusChange)
    ensures e.previousStatus == None && e.newStatus == Submitted
  {
    StatusChange(None, Submitted, RegistrationFeedback, RegistrationActor, at)
  }

  /** One admin-driven transition: the requested status, the feedback, the
      acting admin's name and the time of the request. */
  datatype Transition = Transition(status: ApplicationStatus, feedback: string, actor: string, at: nat)

  /** The status the newest entry of a history records. */
  function CurrentStatus(h: seq<StatusChange>): ApplicationStatus
    requires h != []
  {
    h[|h| - 1].newStatus
  }

  /** Appending the entry for a transition: exactly one entry is added, the
      earlier ones are untouched, the new entry's previous status is the
      status before the transition and its new status the requested one. */
  function Record(h: seq<StatusChange>, t: Transition): (h': seq<StatusChange>)
    requires h != []
    ensures |h'| == |h| + 1 && h'[..|h|] == h
    ensures h'[|h|].previousStatus == Some(CurrentStatus(h))
    ensures CurrentStatus(h') == t.status
    ensures h'[|h|].feedback == t.feedback && h'[|h|].adminUser == t.actor && h'[|h|].createdAt == t.at
  {
    h + [StatusChange(Some(CurrentStatus(h)), t.status, t.feedback, t.actor, t.at)]
  }

  /** A well-formed history: it starts with the registration entry (no
      previous status, new status SUBMITTED), and every later entry has a
      previous status, namely the new status of the entry before it. */
  predicate Chained(h: seq<StatusChange>)
  {
    && h != []
    && h[0].previousStatus == None
    && h[0].newStatus == Submitted
    && forall i :: 0 < i < |h| ==> h[i].previousStatus == Some(h[i - 1].newStatus)
  }

  /** Recording a transition keeps a history well-formed. */
  lemma RecordKeepsChained(h: seq<StatusChange>, t: Transition)
    requires Chained(h)
    ensures Chained(Record(h, t))
  {
    var h' := Record(h, t);
    forall i | 0 < i < |h'| ensures h'[i].previousStatus == Some(h'[i - 1].newStatus) {
      if i < |h| {
        assert h'[i] == h[i] && h'[i - 1] == h[i - 1];
      }
    }
  }

  /** Transition times that come after the registration time and strictly
      increase. */
  predicate Ascending(registeredAt: nat, ts: seq<Transition>)
  {
    && (forall i :: 0 <= i < |ts| ==> registeredAt < ts[i].at)
    && (forall i, j :: 0 <= i < j < |ts| ==> ts[i].at < ts[j].at)
  }

  /** The history of a candidate registered at `registeredAt` to which the
      transitions `ts` were applied in order. */
  function Replay(registeredAt: nat, ts: seq<Transition>): (h: seq<StatusChange>)
    ensures |h| == |ts| + 1
  {
    if ts == [] then [InitialEntry(registeredAt)]
    else Record(Replay(registeredAt, ts[..|ts| - 1]), ts[|ts| - 1])
  }

  /** After registration and N transitions the history holds N + 1 entries:
      the registration entry, then one entry per transition carrying its
      status, feedback, actor and time. The history is well-formed, its
      newest entry records the last requested status (SUBMITTED when there
      was none), and it is in chronological order when the requests were. */
  lemma {:induction false} ReplayShape(registeredAt: nat, ts: seq<Transition>)
    ensures var h := Replay(registeredAt, ts);
            && h[0] == InitialEntry(registeredAt)
            && Chained(h)
            && (forall i :: 0 <= i < |ts| ==>
                  && h[i + 1].newStatus == ts[i].status
                  && h[i + 1].feedback == ts[i].feedback
                  && h[i + 1].adminUser == ts[i].actor
                  && h[i + 1].createdAt == ts[i].at)
            && CurrentStatus(h) == (if ts == [] then Submitted else ts[|ts| - 1].status)
            && (Ascending(registeredAt, ts) ==> ChangesOldestFirst(h))
  {
    if ts != [] {
      var init := ts[..|ts| - 1];
      var t := ts[|ts| - 1];
      ReplayShape(registeredAt, init);
      var p := Replay(registeredAt, init);
      var h := Replay(registeredAt, ts);
      assert h == Record(p, t);
      RecordKeepsChained(p, t);
      assert h[0] == p[0];
      forall i | 0 <= i < |ts|
        ensures && h[i + 1].newStatus == ts[i].status
                && h[i + 1].feedback == ts[i].feedback
                && h[i + 1].adminUser == ts[i].actor
                && h[i + 1].createdAt == ts[i].at
      {
        if i < |init| {
          assert h[i + 1] == p[i + 1] && ts[i] == init[i];
        }
      }
      if Ascending(registeredAt, ts) {
        assert Ascending(registeredAt, init);
        forall i, j | 0 <= i < j < |h| ensures h[i].createdAt < h[j].createdAt {
          if j < |p| {
            assert h[i] == p[i] && h[j] == p[j];
          } else if i == 0 {
            assert h[0].createdAt == registeredAt;
          } else {
            assert h[i].createdAt == ts[i - 1].at;
          }
        }
      }
    }
  }
}

=== FILE: models.dfy ===
/** The entities of equavu_hr_app/models.py: the two closed enumerations, the
    Candidate and StatusChange records, their string forms, their newest-first
    ordering and the resume storage path. */
module Models {
  import opened Wrappers
  import opened Text

  /** Departments a candidate may apply to (a closed set of three). */
  datatype Department = IT | HR | Finance

  /** The application lifecycle states (a closed set of five). */
  datatype ApplicationStatus = Submitted | UnderReview | InterviewScheduled | Rejected | Accepted

  /** The stored values of Department.choices, in declaration order. */
  const DepartmentValues: seq<string> := ["IT", "HR", "FINANCE"]

  /** The stored values of ApplicationStatus.choices, in declaration order. */
  const StatusValues: seq<string> :=
    ["SUBMITTED", "UNDER_REVIEW", "INTERVIEW_SCHEDULED", "REJECTED", "ACCEPTED"]

  /** The value a department is stored as. */
  function DepartmentValue(d: Department): (v: string)
    ensures v in DepartmentValues
  {
    match d
    case IT => "IT"
    case HR => "HR"
    case Finance => "FINANCE"
  }

  /** The human-readable label of a department (`get_department_display`). */
  function DepartmentLabel(d: Department): string
  {
    match d
    case IT => "IT"
    case HR => "HR"
    case Finance => "Finance"
  }

  /** The value a status is stored as. */
  function StatusValue(s: ApplicationStatus): (v: string)
    ensures v in StatusValues
  {
    match s
    case Submitted => "SUBMITTED"
    case UnderReview => "UNDER_REVIEW"
    case InterviewScheduled => "INTERVIEW_SCHEDULED"
    case Rejected => "REJECTED"
    case Accepted => "ACCEPTED"
  }

  /** The human-readable label of a status (`get_current_status_display`). */
  function StatusLabel(s: ApplicationStatus): string
  {
    match s
    case Submitted => "Submitted"
    case UnderReview => "Under Review"
    case InterviewScheduled => "Interview Scheduled"
    case Rejected => "Rejected"
    case Accepted => "Accepted"
  }

  /** The department a stored value denotes, if any: a value names a
      department exactly when it is one of the three choices, and then it is
      that department's own value. */
  function DepartmentFromValue(v: string): (r: Option<Department>)
    ensures r.Some? <==> v in DepartmentValues
    ensures forall d :: r == Some(d) <==> v == DepartmentValue(d)
  {
    if v == "IT" then Some(IT)
    else if v == "HR" then Some(HR)
    else if v == "FINANCE" then Some(Finance)
    else None
  }

  /** The status a stored value denotes, if any: a value names a status
      exactly when it is one of the five choices, and then it is that
      status's own value. */
  function StatusFromValue(v: string): (r: Option<ApplicationStatus>)
    ensures r.Some? <==> v in StatusValues
    ensures forall s :: r == Some(s) <==> v == StatusValue(s)
  {
    if v == "SUBMITTED" then Some(Submitted)
    else if v == "UNDER_REVIEW" then Some(UnderReview)
    else if v == "INTERVIEW_SCHEDULED" then Some(InterviewScheduled)
    else if v == "REJECTED" then Some(Rejected)
    else if v == "ACCEPTED" then Some(Accepted)
    else None
  }

  /** Both enumerations are closed: every member has its own stored value,
      and the choices are exactly three and five distinct values. */
  lemma EnumerationsAreClosed()
    ensures |DepartmentValues| == 3 && |StatusValues| == 5
    ensures forall i, j :: 0 <= i < j < |DepartmentValues| ==> DepartmentValues[i] != DepartmentValues[j]
    ensures forall i, j :: 0 <= i < j < |StatusValues| ==> StatusValues[i] != StatusValues[j]
    ensures forall d, e :: DepartmentValue(d) == DepartmentValue(e) ==> d == e
    ensures forall s, t :: StatusValue(s) == StatusValue(t) ==> s == t
  {
    forall d, e | DepartmentValue(d) == DepartmentValue(e) ensures d == e {
      assert DepartmentFromValue(DepartmentValue(d)) == Some(d);
    }
    forall s, t | StatusValue(s) == StatusValue(t) ensures s == t {
      assert StatusFromValue(StatusValue(s)) == Some(s);
    }
  }

  /** A calendar date; parsing it from request text is not part of this model. */
  datatype Date = Date(year: int, month: int, day: int)

  /** Candidate identifiers are the text of a UUID. */
  type CandidateId = string

  /** The text of a UUID as `str(uuid.uuid4())` produces it: 36 characters,
      lower-case hexadecimal digits and dashes. */
  predicate IsUuidText(s: string)
  {
    |s| == 36 && forall i :: 0 <= i < |s| ==> s[i] in "0123456789abcdef-"
  }

  /** A job application. `resume` is the stored file's name ("" when there is
      none); `createdAt` and `updatedAt` are ticks of a monotonic clock. The
      model type `nat` makes a negative years_of_experience unrepresentable. */
  datatype Candidate = Candidate(
    id: CandidateId,
    fullName: string,
    email: string,
    dateOfBirth: Date,
    yearsOfExperience: nat,
    department: Department,
    resume: string,
    currentStatus: ApplicationStatus,
    createdAt: nat,
    updatedAt: nat)

  /** One audit entry. `previousStatus` is None only for the entry written at
      registration; `newStatus` is always a member of the enumeration. The
      owning candidate is the key under which the entry is stored. */
  datatype StatusChange = StatusChange(
    previousStatus: Option<ApplicationStatus>,
    newStatus: ApplicationStatus,
    feedback: string,
    adminUser: string,
    createdAt: nat)

  /** `str(candidate)`: the full name and the department's stored value. */
  function CandidateText(c: Candidate): string
  {
    c.fullName + " - " + DepartmentValue(c.department)
  }

  /** Two candidates of the same name in different departments print
      differently: the department is recoverable from the text. */
  lemma CandidateTextDistinguishesDepartments(c: Candidate, d: Candidate)
    requires c.fullName == d.fullName && c.department != d.department
    ensures CandidateText(c) != CandidateText(d)
  {
    EnumerationsAreClosed();
    if CandidateText(c) == CandidateText(d) {
      SameMiddle(c.fullName + " - ", DepartmentValue(c.department), DepartmentValue(d.department), "");
      assert false;
    }
  }

  /** `str(status_change)`: the owner's full name, the new status's stored
      value and the creation time (its text is passed in). */
  function StatusChangeText(fullName: string, ch: StatusChange, createdAtText: string): string
  {
    fullName + " - " + StatusValue(ch.newStatus) + " - " + createdAtText
  }

  /** Two entries of one candidate at one time but with different new
      statuses print differently. */
  lemma StatusChangeTextDistinguishesStatuses(fullName: string, a: StatusChange, b: StatusChange, at: string)
    requires a.newStatus != b.newStatus
    ensures StatusChangeText(fullName, a, at) != StatusChangeText(fullName, b, at)
  {
    EnumerationsAreClosed();
    var p := fullName + " - ";
    assert StatusChangeText(fullName, a, at) == p + StatusValue(a.newStatus) + (" - " + at);
    assert StatusChangeText(fullName, b, at) == p + StatusValue(b.newStatus) + (" - " + at);
    if StatusChangeText(fullName, a, at) == StatusChangeText(fullName, b, at) {
      SameMiddle(fullName + " - ", StatusValue(a.newStatus), StatusValue(b.newStatus), " - " + at);
      assert false;
    }
  }

  /** Candidates in strictly descending creation order (Meta.ordering '-created_at'). */
  predicate CandidatesNewestFirst(cs: seq<Candidate>)
  {
    forall i, j :: 0 <= i < j < |cs| ==> cs[i].createdAt > cs[j].createdAt
  }

  /** Candidates in strictly ascending creation order (the order of insertion). */
  predicate CandidatesOldestFirst(cs: seq<Candidate>)
  {
    forall i, j :: 0 <= i < j < |cs| ==> cs[i].createdAt < cs[j].createdAt
  }

  /** Status changes in strictly descending creation order (Meta.ordering '-created_at'). */
  predicate ChangesNewestFirst(h: seq<StatusChange>)
  {
    forall i, j :: 0 <= i < j < |h| ==> h[i].createdAt > h[j].createdAt
  }

  /** Status changes in strictly ascending creation order (the order of appends). */
  predicate ChangesOldestFirst(h: seq<StatusChange>)
  {
    forall i, j :: 0 <= i < j < |h| ==> h[i].createdAt < h[j].createdAt
  }

  /** A sequence in reverse order. */
  function Reverse<T>(s: seq<T>): (r: seq<T>)
    ensures |r| == |s|
    ensures forall i :: 0 <= i < |s| ==> r[i] == s[|s| - 1 - i]
  {
    if s == [] then [] else [s[|s| - 1]] + Reverse(s[..|s| - 1])
  }

  /** Reading an oldest-first history backwards lists it newest first, with
      the same entries. */
  lemma ReverseChangesNewestFirst(h: seq<StatusChange>)
    ensures ChangesOldestFirst(h) ==> ChangesNewestFirst(Reverse(h))
    ensures forall x :: x in Reverse(h) <==> x in h
  {
    var r := Reverse(h);
    forall x | x in h ensures x in r {
      var i :| 0 <= i < |h| && h[i] == x;
      assert r[|h| - 1 - i] == x;
    }
  }

  /** The folder a resume is stored under: the candidate's id when the
      instance has one, otherwise a freshly generated UUID. */
  function UploadFolder(instanceId: Option<CandidateId>, freshUuid: string): string
  {
    match instanceId
    case Some(id) => if id != "" then id else freshUuid
    case None => freshUuid
  }

  /** `resume_upload_path`: `resumes/<folder>/<fileUuid>.<ext>` where ext is
      the text after the last '.' of the uploaded file's name. The UUIDs that
      the source generates are parameters here. `os.path.join` of these three
      parts is their concatenation with '/', since none of them is empty or
      starts with '/'. */
  function ResumeUploadPath(instanceId: Option<CandidateId>, filename: string,
                            fileUuid: string, freshFolder: string): string
  {
    "resumes/" + UploadFolder(instanceId, freshFolder) + "/" + fileUuid + "." + AfterLast(filename, '.')
  }

  /** UUID text holds neither a path separator nor a '.'. */
  lemma UuidHasNoSeparators(u: string)
    requires IsUuidText(u)
    ensures '/' !in u && '.' !in u
  {
    forall i | 0 <= i < |u| ensures u[i] != '/' && u[i] != '.' {
      assert u[i] in "0123456789abcdef-";
    }
  }

  /** The shape of a stored resume path: it lies in the candidate's own
      folder (or the fresh one when there is no id yet), its base name is the
      file UUID followed by the upload's extension, and the extension of that
      base name is the upload's extension again. */
  lemma UploadPathShape(instanceId: Option<CandidateId>, filename: string, fileUuid: string, freshFolder: string)
    requires '/' !in fileUuid && '/' !in AfterLast(filename, '.')
    requires instanceId.Some? ==> instanceId.value != ""
    ensures ResumeUploadPath(instanceId, filename, fileUuid, freshFolder)
            == "resumes/" + (if instanceId.Some? then instanceId.value else freshFolder) + "/"
               + fileUuid + "." + AfterLast(filename, '.')
    ensures AfterLast(ResumeUploadPath(instanceId, filename, fileUuid, freshFolder), '/')
            == fileUuid + "." + AfterLast(filename, '.')
    ensures AfterLast(AfterLast(ResumeUploadPath(instanceId, filename, fileUuid, freshFolder), '/'), '.')
            == AfterLast(filename, '.')
  {
    var ext := AfterLast(filename, '.');
    AfterLastFacts(filename, '.');
    var folder := UploadFolder(instanceId, freshFolder);
    assert folder == if instanceId.Some? then instanceId.value else freshFolder;
    JoinedBaseName("resumes/" + folder, fileUuid, ext);
  }

  /** The base name of `dir/uuid.ext` is `uuid.ext`, and its extension is `ext`. */
  lemma JoinedBaseName(dir: string, uuid: string, ext: string)
    requires '/' !in uuid && '.' !in ext && '/' !in ext
    ensures AfterLast(dir + "/" + uuid + "." + ext, '/') == uuid + "." + ext
    ensures AfterLast(uuid + "." + ext, '.') == ext
  {
    var base := uuid + "." + ext;
    assert base == uuid + ['.'] + ext;
    assert '/' !in base;
    assert dir + "/" + uuid + "." + ext == dir + ['/'] + base;
    AfterLastUnique(dir, '/', base);
    AfterLastUnique(uuid, '.', ext);
  }
}

=== FILE: serializers.dfy ===
/** The request validators of equavu_hr_app/serializers.py and the shape of
    the candidate detail representation. Each field is checked on its own
    and every failing field is reported, as a map from field to reasons. */
module Serializers {
  import opened Wrappers
  import opened Text
  import opened Models
  import opened AuditLog

  /** Why a field was rejected. */
  datatype Reason =
    | Required       // the field is missing
    | Blank          // a text field is empty
    | TooLong        // longer than the column allows
    | NotUnique      // the e-mail address is already registered
    | BelowMinimum   // a negative number of years
    | InvalidChoice  // not one of the enumeration's values
    | BadExtension   // resume extension other than pdf or docx
    | TooLarge       // resume larger than the configured maximum
    | NullCharacter  // a text value holding the NUL character
    | NullValue      // a JSON null where the field does not allow one

  /** The fields of the registration form. */
  datatype Field = FullNameField | EmailField | DateOfBirthField | YearsOfExperienceField | DepartmentField | ResumeField

  /** An uploaded file: its name as sent and its size in bytes. */
  datatype Upload = Upload(name: string, size: nat)

  /** A registration request as received; a field the client did not send is None. */
  datatype RegistrationForm = RegistrationForm(
    fullName: Option<string>,
    email: Option<string>,
    dateOfBirth: Option<Date>,
    yearsOfExperience: Option<int>,
    department: Option<string>,
    resume: Option<Upload>)

  /** A registration request that passed validation. */
  datatype Registration = Registration(
    fullName: string,
    email: string,
    dateOfBirth: Date,
    yearsOfExperience: nat,
    department: Department,
    resume: Upload)

  /** max_length of full_name. */
  const FullNameMaxLength: nat := 255

  /** max_length of an e-mail field. */
  const EmailMaxLength: nat := 254

  /** The resume extensions the upload accepts. */
  const AllowedExtensions: seq<string> := ["pdf", "docx"]

  /** The extension the upload's extension check looks at, lower-cased. */
  function ResumeExtension(name: string): string
  {
    Lower(NameExtension(name))
  }

  /** The text after the name's last '.', provided that text holds no '/'
      and the '.' is neither the first character of the last path component
      nor its last; empty otherwise. SuffixOfLastComponent shows this is the
      suffix of the last path component, as `pathlib` computes it. */
  function NameExtension(name: string): string
  {
    var ext := AfterLast(name, '.');
    if ext != [] && '/' !in ext && |ext| + 1 < |name| && name[|name| - |ext| - 2] != '/'
    then ext else []
  }

  /** The suffix of the last path component without its '.': empty when the
      component has no '.', or has one only at its start or its end. */
  function ComponentSuffix(name: string): string
  {
    var component := AfterLast(name, '/');
    var ext := AfterLast(component, '.');
    if ext != [] && |ext| + 1 < |component| then ext else []
  }

  /** The extension check looks at the suffix of the name's last path
      component, whatever directories the name carries. */
  lemma SuffixOfLastComponent(name: string)
    ensures NameExtension(name) == ComponentSuffix(name)
  {
    var component := AfterLast(name, '/');
    var ext := AfterLast(component, '.');
    AfterLastFacts(name, '/');
    AfterLastFacts(component, '.');
    if |ext| < |component| {
      SameSplitCondition(name, component, |ext|);
      DotInLastComponent(name, component);
      if |ext| + 1 < |component| {
        assert ComponentSuffix(name) == ext;
        assert NameExtension(name) == ext;
      } else {
        assert ComponentSuffix(name) == [];
        assert NameExtension(name) == [];
      }
    } else {
      NoDotInLastComponent(name, component);
    }
  }

  /** When the last component has a '.', the text after the name's last '.'
      is the text after the component's last '.', and holds no '/'. */
  lemma DotInLastComponent(name: string, component: string)
    requires component == AfterLast(name, '/')
    requires |AfterLast(component, '.')| < |component|
    ensures AfterLast(name, '.') == AfterLast(component, '.')
    ensures '/' !in AfterLast(name, '.')
  {
    AfterLastFacts(name, '/');
    SeparatorOccurs(component, '.');
    AfterLastNested(name, '/', '.');
    AfterLastKeepsAbsence(component, '.', '/');
  }

  /** Within a path whose last component is `component`, a '.' at `k`
      characters from the end has a non-'/' character before it exactly when
      it is not the first character of that component, the text after the
      path's last '/'. */
  lemma SameSplitCondition(name: string, component: string, k: nat)
    requires |component| <= |name| && component == name[|name| - |component|..]
    requires '/' !in component
    requires |component| < |name| ==> name[|name| - |component| - 1] == '/'
    requires k < |component|
    ensures (k + 1 < |name| && name[|name| - k - 2] != '/') <==> k + 1 < |component|
  {
    var n := |name|;
    var m := |component|;
    if k + 1 < m {
      assert name[n - k - 2] == component[m - k - 2];
    }
  }

  /** When the last component has no '.', the text after the name's last '.'
      is either the whole name or reaches back past a '/'. */
  lemma NoDotInLastComponent(name: string, component: string)
    requires component == AfterLast(name, '/')
    requires |AfterLast(component, '.')| == |component|
    ensures NameExtension(name) == [] && ComponentSuffix(name) == []
  {
    var ext := AfterLast(name, '.');
    AfterLastFacts(name, '/');
    AfterLastFacts(name, '.');
    AfterLastFacts(component, '.');
    if |component| < |name| {
      SeparatorBeforeExtension(name, component, ext);
    } else {
      assert component == name;
    }
  }

  /** A '.'-free last component after a '/' puts that '/' inside the text
      after the name's last '.'. */
  lemma SeparatorBeforeExtension(name: string, component: string, ext: string)
    requires |component| < |name| && component == name[|name| - |component|..] && '.' !in component
    requires name[|name| - |component| - 1] == '/'
    requires |ext| <= |name| && ext == name[|name| - |ext|..]
    requires |ext| < |name| ==> name[|name| - |ext| - 1] == '.'
    ensures '/' in ext
  {
    if |ext| <= |component| {
      assert false;
    }
    assert ext[|ext| - |component| - 1] == name[|name| - |component| - 1];
  }

  /** Whenever the extension check sees an extension, it is the lower-cased
      text after the name's last '.', which is also what the storage path
      keeps as the stored file's extension; that text holds no '/'. */
  lemma CheckedExtensionIsStoredExtension(name: string)
    requires ResumeExtension(name) != []
    ensures ResumeExtension(name) == Lower(AfterLast(name, '.'))
    ensures '/' !in AfterLast(name, '.') && AfterLast(name, '.') != []
  {
  }

  /** The character every text field of the framework refuses. */
  const Nul: char := '\0'

  /** The full name must be present, non-empty, short enough and free of
      NUL. An empty name is reported as blank and nothing else; otherwise
      both failures are reported together, length first: the text field
      appends its length validator before its NUL validator. */
  function FullNameErrors(v: Option<string>): (r: seq<Reason>)
    ensures r == [] <==> v.Some? && 0 < |v.value| <= FullNameMaxLength && Nul !in v.value
    ensures v.Some? && |v.value| > FullNameMaxLength && Nul in v.value ==> r == [TooLong, NullCharacter]
  {
    match v
    case None => [Required]
    case Some(s) =>
      if s == "" then [Blank]
      else (if |s| > FullNameMaxLength then [TooLong] else []) + (if Nul in s then [NullCharacter] else [])
  }

  /** The e-mail must be present, non-empty, not already registered, short
      enough and free of NUL. The failures are reported together, uniqueness
      first: the field runs its uniqueness validator before the length and
      NUL validators the text field appends. */
  function EmailErrors(v: Option<string>, taken: set<string>): (r: seq<Reason>)
    ensures r == [] <==> v.Some? && 0 < |v.value| <= EmailMaxLength && v.value !in taken && Nul !in v.value
    ensures v.Some? && |v.value| > EmailMaxLength && v.value in taken && Nul in v.value ==>
              r == [NotUnique, TooLong, NullCharacter]
  {
    match v
    case None => [Required]
    case Some(s) =>
      if s == "" then [Blank]
      else
        (if s in taken then [NotUnique] else []) + (if |s| > EmailMaxLength then [TooLong] else [])
        + (if Nul in s then [NullCharacter] else [])
  }

  function DateOfBirthErrors(v: Option<Date>): (r: seq<Reason>)
    ensures r == [] <==> v.Some?
  {
    if v.None? then [Required] else []
  }

  /** validate_years_of_experience: zero is accepted, negatives are not. */
  function YearsOfExperienceErrors(v: Option<int>): (r: seq<Reason>)
    ensures r == [] <==> v.Some? && v.value >= 0
    ensures v.Some? && v.value < 0 ==> r == [BelowMinimum]
  {
    match v
    case None => [Required]
    case Some(y) => if y < 0 then [BelowMinimum] else []
  }

  /** validate_department: the value must be one of the three choices. */
  function DepartmentErrors(v: Option<string>): (r: seq<Reason>)
    ensures r == [] <==> v.Some? && v.value in DepartmentValues
  {
    match v
    case None => [Required]
    case Some(s) => if DepartmentFromValue(s).None? then [InvalidChoice] else []
  }

  /** The extension check runs first; validate_resume (the size limit) runs
      only on a file whose extension passed. A size equal to the maximum is
      accepted. */
  function ResumeErrors(v: Option<Upload>, maxUploadSize: nat): (r: seq<Reason>)
    ensures r == [] <==> v.Some? && ResumeExtension(v.value.name) in AllowedExtensions && v.value.size <= maxUploadSize
    ensures v.Some? && ResumeExtension(v.value.name) !in AllowedExtensions ==> r == [BadExtension]
    ensures v.Some? && ResumeExtension(v.value.name) in AllowedExtensions && v.value.size > maxUploadSize ==> r == [TooLarge]
  {
    match v
    case None => [Required]
    case Some(u) =>
      if ResumeExtension(u.name) !in AllowedExtensions then [BadExtension]
      else if u.size > maxUploadSize then [TooLarge]
      else []
  }

  /** The reasons one field of the form is rejected for (none when it is valid). */
  function FieldErrors(form: RegistrationForm, taken: set<string>, maxUploadSize: nat, f: Field): seq<Reason>
  {
    match f
    case FullNameField => FullNameErrors(form.fullName)
    case EmailField => EmailErrors(form.email, taken)
    case DateOfBirthField => DateOfBirthErrors(form.dateOfBirth)
    case YearsOfExperienceField => YearsOfExperienceErrors(form.yearsOfExperience)
    case DepartmentField => DepartmentErrors(form.department)
    case ResumeField => ResumeErrors(form.resume, maxUploadSize)
  }

  const AllFields: set<Field> :=
    {FullNameField, EmailField, DateOfBirthField, YearsOfExperienceField, DepartmentField, ResumeField}

  lemma AllFieldsListed()
    ensures forall f :: f in AllFields
  {
    forall f: Field ensures f in AllFields {
      match f
      case FullNameField =>
      case EmailField =>
      case DateOfBirthField =>
      case YearsOfExperienceField =>
      case DepartmentField =>
      case ResumeField =>
    }
  }

  /** What an accepted registration promises about the request it came from. */
  predicate Accepts(reg: Registration, form: RegistrationForm, taken: set<string>, maxUploadSize: nat)
  {
    && form.fullName == Some(reg.fullName) && 0 < |reg.fullName| <= FullNameMaxLength && Nul !in reg.fullName
    && form.email == Some(reg.email) && 0 < |reg.email| <= EmailMaxLength && reg.email !in taken
    && Nul !in reg.email
    && form.dateOfBirth == Some(reg.dateOfBirth)
    && form.yearsOfExperience == Some(reg.yearsOfExperience as int)
    && form.department == Some(DepartmentValue(reg.department))
    && form.resume == Some(reg.resume)
    && ResumeExtension(reg.resume.name) in AllowedExtensions
    && reg.resume.size <= maxUploadSize
  }

  /** CandidateCreateSerializer.is_valid: a request is accepted exactly when
      every field is valid; otherwise the errors name every failing field,
      and only those, each with its reasons. `taken` is the set of e-mail
      addresses already registered. */
  function ValidateRegistration(form: RegistrationForm, taken: set<string>, maxUploadSize: nat)
    : (r: Result<Registration, map<Field, seq<Reason>>>)
    ensures r.Success? <==> forall f :: FieldErrors(form, taken, maxUploadSize, f) == []
    ensures r.Success? ==> Accepts(r.value, form, taken, maxUploadSize)
    ensures r.Failure? ==> forall f :: f in r.error <==> FieldErrors(form, taken, maxUploadSize, f) != []
    ensures r.Failure? ==> forall f :: f in r.error ==> r.error[f] == FieldErrors(form, taken, maxUploadSize, f)
  {
    var errors := map f | f in AllFields && FieldErrors(form, taken, maxUploadSize, f) != []
                        :: FieldErrors(form, taken, maxUploadSize, f);
    AllFieldsListed();
    if errors == map[] then
      assert forall f :: FieldErrors(form, taken, maxUploadSize, f) == [] by {
        forall f ensures FieldErrors(form, taken, maxUploadSize, f) == [] {
          assert f !in errors;
        }
      }
      EveryFieldValid(form, taken, maxUploadSize);
      Success(Registration(form.fullName.value, form.email.value, form.dateOfBirth.value,
                           form.yearsOfExperience.value, DepartmentFromValue(form.department.value).value,
                           form.resume.value))
    else
      Failure(errors)
  }

  /** A form no field rejects has every value present and acceptable. */
  lemma EveryFieldValid(form: RegistrationForm, taken: set<string>, maxUploadSize: nat)
    requires forall f :: FieldErrors(form, taken, maxUploadSize, f) == []
    ensures form.fullName.Some? && 0 < |form.fullName.value| <= FullNameMaxLength && Nul !in form.fullName.value
    ensures form.email.Some? && 0 < |form.email.value| <= EmailMaxLength && form.email.value !in taken
    ensures Nul !in form.email.value
    ensures form.dateOfBirth.Some?
    ensures form.yearsOfExperience.Some? && form.yearsOfExperience.value >= 0
    ensures form.department.Some? && DepartmentFromValue(form.department.value).Some?
    ensures DepartmentValue(DepartmentFromValue(form.department.value).value) == form.department.value
    ensures form.resume.Some? && ResumeExtension(form.resume.value.name) in AllowedExtensions
    ensures form.resume.value.size <= maxUploadSize
  {
    assert FieldErrors(form, taken, maxUploadSize, FullNameField) == [];
    assert FieldErrors(form, taken, maxUploadSize, EmailField) == [];
    assert FieldErrors(form, taken, maxUploadSize, DateOfBirthField) == [];
    assert FieldErrors(form, taken, maxUploadSize, YearsOfExperienceField) == [];
    assert FieldErrors(form, taken, maxUploadSize, DepartmentField) == [];
    assert FieldErrors(form, taken, maxUploadSize, ResumeField) == [];
  }

  /** Errors are collected, not reported first-only: a request that lacks
      both the date of birth and the resume is rejected naming both. */
  lemma MissingFieldsReportedTogether(form: RegistrationForm, taken: set<string>, maxUploadSize: nat)
    requires form.dateOfBirth.None? && form.resume.None?
    ensures var r := ValidateRegistration(form, taken, maxUploadSize);
            r.Failure? && DateOfBirthField in r.error && ResumeField in r.error
            && r.error[DateOfBirthField] == [Required] && r.error[ResumeField] == [Required]
  {
    assert FieldErrors(form, taken, maxUploadSize, ResumeField) != [];
  }

  /** The size limit is inclusive: with an accepted extension, a file of
      exactly the maximum size passes and one byte more is rejected. */
  lemma ResumeSizeBoundary(name: string, maxUploadSize: nat)
    requires ResumeExtension(name) in AllowedExtensions
    ensures ResumeErrors(Some(Upload(name, maxUploadSize)), maxUploadSize) == []
    ensures ResumeErrors(Some(Upload(name, maxUploadSize + 1)), maxUploadSize) == [TooLarge]
  {
  }

  /** The fields of a status update request. */
  datatype UpdateField = StatusField | FeedbackField

  /** One member of a JSON request body: left out, an explicit null, or a value. */
  datatype Sent<T> = Absent | Null | Given(value: T)

  /** A status update request as received. */
  datatype StatusUpdateForm = StatusUpdateForm(status: Sent<string>, feedback: Sent<string>)

  /** A status update request that passed validation; feedback stays optional. */
  datatype StatusUpdate = StatusUpdate(status: ApplicationStatus, feedback: Option<string>)

  /** The status must be sent, not null, and one of the five status values. */
  function StatusErrors(v: Sent<string>): (r: seq<Reason>)
    ensures r == [] <==> v.Given? && v.value in StatusValues
    ensures r == [Required] <==> v.Absent?
    ensures r == [NullValue] <==> v.Null?
  {
    match v
    case Absent => [Required]
    case Null => [NullValue]
    case Given(s) => if StatusFromValue(s).Some? then [] else [InvalidChoice]
  }

  /** The feedback may be left out or blank, but not null, and it must be
      free of NUL. A blank feedback skips the validators altogether. */
  function FeedbackErrors(v: Sent<string>): (r: seq<Reason>)
    ensures r == [] <==> v.Absent? || (v.Given? && Nul !in v.value)
    ensures r == [NullValue] <==> v.Null?
  {
    match v
    case Absent => []
    case Null => [NullValue]
    case Given(s) => if s == "" then [] else if Nul in s then [NullCharacter] else []
  }

  /** StatusUpdateSerializer.is_valid: every field is checked and every
      failing one reported, as for a registration. A valid request carries
      its status and its feedback, absent or as sent. */
  function ValidateStatusUpdate(form: StatusUpdateForm): (r: Result<StatusUpdate, map<UpdateField, seq<Reason>>>)
    ensures r.Success? <==>
              form.status.Given? && form.status.value in StatusValues
              && (form.feedback.Absent? || (form.feedback.Given? && Nul !in form.feedback.value))
    ensures r.Success? ==> StatusValue(r.value.status) == form.status.value
    ensures r.Success? ==> r.value.feedback == (if form.feedback.Given? then Some(form.feedback.value) else None)
    ensures r.Failure? ==> (StatusField in r.error <==> StatusErrors(form.status) != [])
    ensures r.Failure? ==> (FeedbackField in r.error <==> FeedbackErrors(form.feedback) != [])
    ensures r.Failure? ==> forall f :: f in r.error ==> r.error[f] != []
    ensures r.Failure? && StatusField in r.error ==> r.error[StatusField] == StatusErrors(form.status)
    ensures r.Failure? && FeedbackField in r.error ==> r.error[FeedbackField] == FeedbackErrors(form.feedback)
  {
    var statusErrors := StatusErrors(form.status);
    var feedbackErrors := FeedbackErrors(form.feedback);
    if statusErrors == [] && feedbackErrors == [] then
      var status := StatusFromValue(form.status.value).value;
      Success(StatusUpdate(status, if form.feedback.Given? then Some(form.feedback.value) else None))
    else
      Failure((if statusErrors == [] then map[] else map[StatusField := statusErrors])
        + (if feedbackErrors == [] then map[] else map[FeedbackField := feedbackErrors]))
  }

  /** A null or NUL-holding feedback is refused on its own field, even with a
      valid status; a null status is refused as null, not as missing. */
  lemma FeedbackRefusals(status: string)
    requires status in StatusValues
    ensures ValidateStatusUpdate(StatusUpdateForm(Given(status), Null)) == Failure(map[FeedbackField := [NullValue]])
    ensures ValidateStatusUpdate(StatusUpdateForm(Given(status), Given("a\0b")))
              == Failure(map[FeedbackField := [NullCharacter]])
    ensures ValidateStatusUpdate(StatusUpdateForm(Null, Null))
              == Failure(map[StatusField := [NullValue], FeedbackField := [NullValue]])
  {
    assert StatusErrors(Given(status)) == [];
    var withNul := "a\0b";
    assert Nul in withNul by { assert withNul[1] == Nul; }
    assert FeedbackErrors(Given(withNul)) == [NullCharacter];
    assert (map[] + map[FeedbackField := [NullValue]]) == map[FeedbackField := [NullValue]];
    assert (map[] + map[FeedbackField := [NullCharacter]]) == map[FeedbackField := [NullCharacter]];
    assert map[StatusField := [NullValue]] + map[FeedbackField := [NullValue]]
        == map[StatusField := [NullValue], FeedbackField := [NullValue]];
  }

  /** The representation of a candidate on the detail and status endpoints:
      the candidate's fields (the resume is not among them), the display
      labels, and its whole status history, newest first. */
  datatype CandidateDetail = CandidateDetail(
    id: CandidateId,
    fullName: string,
    email: string,
    dateOfBirth: Date,
    yearsOfExperience: nat,
    department: Department,
    departmentDisplay: string,
    currentStatus: ApplicationStatus,
    currentStatusDisplay: string,
    createdAt: nat,
    updatedAt: nat,
    statusChanges: seq<StatusChange>)

  /** The detail representation of candidate `c` with history `h` (oldest
      first). The history comes out newest first, entry for entry, and when
      the candidate's status is the one its newest entry records, the first
      entry shown agrees with the status shown. */
  function DetailOf(c: Candidate, h: seq<StatusChange>): (d: CandidateDetail)
    ensures d.id == c.id && d.currentStatus == c.currentStatus && d.department == c.department
    ensures d.departmentDisplay == DepartmentLabel(c.department) && d.currentStatusDisplay == StatusLabel(c.currentStatus)
    ensures |d.statusChanges| == |h|
    ensures forall x :: x in d.statusChanges <==> x in h
    ensures ChangesOldestFirst(h) ==> ChangesNewestFirst(d.statusChanges)
    ensures h != [] && c.currentStatus == CurrentStatus(h) ==> d.statusChanges[0].newStatus == d.currentStatus
  {
    var shown := Reverse(h);
    ReverseChangesNewestFirst(h);
    CandidateDetail(c.id, c.fullName, c.email, c.dateOfBirth, c.yearsOfExperience, c.department,
                    DepartmentLabel(c.department), c.currentStatus, StatusLabel(c.currentStatus),
                    c.createdAt, c.updatedAt, shown)
  }

  /** A value in a JSON reply body. */
  datatype ReplyValue = Text(text: string) | Number(number: int) | Day(day: Date)

  /** The fields CandidateCreateSerializer shows: the six it accepts. */
  const CreatedFields: set<string> := {"full_name", "email", "date_of_birth", "years_of_experience", "department", "resume"}

  /** The 201 body of a registration as written: the six accepted fields of
      the stored candidate, the department by its value and the resume by its
      stored name. It has no "id" entry, so the client is not told the
      identifier it needs to look up its status. */
  function CreatedBody(c: Candidate): (b: map<string, ReplyValue>)
    ensures b.Keys == CreatedFields
    ensures "id" !in b
  {
    map["full_name" := Text(c.fullName), "email" := Text(c.email), "date_of_birth" := Day(c.dateOfBirth),
        "years_of_experience" := Number(c.yearsOfExperience),
        "department" := Text(DepartmentValue(c.department)), "resume" := Text(c.resume)]
  }

  /** The 201 body determines everything the candidate sent: two candidates
      with the same body agree on every accepted field. */
  lemma CreatedBodyKeepsFields(c: Candidate, d: Candidate)
    requires CreatedBody(c) == CreatedBody(d)
    ensures c.fullName == d.fullName && c.email == d.email && c.dateOfBirth == d.dateOfBirth
    ensures c.yearsOfExperience == d.yearsOfExperience && c.department == d.department && c.resume == d.resume
  {
    assert CreatedBody(c)["department"] == CreatedBody(d)["department"];
    assert CreatedBody(c)["years_of_experience"] == CreatedBody(d)["years_of_experience"];
    EnumerationsAreClosed();
  }

  /** The 201 body the registration screen expects: the same fields and,
      in addition, the new candidate's identifier under "id". */
  function CreatedBodyWithId(c: Candidate): (b: map<string, ReplyValue>)
    ensures b.Keys == CreatedFields + {"id"}
    ensures b["id"] == Text(c.id)
    ensures forall k :: k in CreatedFields ==> b[k] == CreatedBody(c)[k]
  {
    CreatedBody(c)["id" := Text(c.id)]
  }
}

=== FILE: store.dfy ===
/** The state the endpoints of equavu_hr_app/views.py share: the candidate
    table and the status-change table, with registration (perform_create) and
    the admin status update (StatusUpdateView.update) as the two operations
    that change them, and the read endpoints as functions of them. */
module Lifecycle {
  import opened Wrappers
  import opened Text
  import opened Models
  import opened AuditLog
  import opened Serializers
  import opened Views

  /** The parts a stored resume path was built from: the file UUID and the
      extension of the uploaded name. */
  datatype ResumeParts = ResumeParts(fileUuid: string, ext: string)

  /** A stored resume name as the upload path produces it for candidate
      `id`: `resumes/<id>/<fileUuid>.<ext>`, with no separator in the file
      UUID or the extension, and an extension the upload check accepts in
      some mix of cases. */
  predicate StoredAs(id: CandidateId, resume: string, p: ResumeParts)
  {
    && resume == "resumes/" + id + "/" + p.fileUuid + "." + p.ext
    && '/' !in p.fileUuid && '/' !in p.ext && '.' !in p.ext
    && Lower(p.ext) in AllowedExtensions
  }

  /** What holds of every stored candidate `c` with id `id`, history `h`
      (oldest first) and the transitions `ts` applied to it so far, while the
      clock reads `clock`: the history is the registration entry followed by
      one entry per transition, in time order; the row's status is the one
      the newest entry records and its updated_at the newest entry's time;
      every time lies before the clock. */
  predicate Tracked(id: CandidateId, c: Candidate, h: seq<StatusChange>, ts: seq<Transition>, clock: nat)
  {
    && c.id == id
    && Ascending(c.createdAt, ts)
    && h == Replay(c.createdAt, ts)
    && c.currentStatus == CurrentStatus(h)
    && c.updatedAt == h[|h| - 1].createdAt
    && c.createdAt < clock
    && (forall i :: 0 <= i < |ts| ==> ts[i].at < clock)
  }

  /** Candidate `id` is stored, has a history and transitions, and is Tracked. */
  predicate TrackedIn(cs: map<CandidateId, Candidate>, hs: map<CandidateId, seq<StatusChange>>,
                      tss: map<CandidateId, seq<Transition>>, clock: nat, id: CandidateId)
  {
    id in cs && id in hs && id in tss && Tracked(id, cs[id], hs[id], tss[id], clock)
  }

  /** Every stored candidate is Tracked. The quantifier is instantiated only
      for the candidates a proof names (see TrackedAt). */
  predicate AllTracked(cs: map<CandidateId, Candidate>, hs: map<CandidateId, seq<StatusChange>>,
                       tss: map<CandidateId, seq<Transition>>, clock: nat)
  {
    forall id {:trigger TrackedIn(cs, hs, tss, clock, id)} :: id in cs ==> TrackedIn(cs, hs, tss, clock, id)
  }

  /** The invariant of one stored candidate, taken out of AllTracked. */
  lemma TrackedAt(cs: map<CandidateId, Candidate>, hs: map<CandidateId, seq<StatusChange>>,
                  tss: map<CandidateId, seq<Transition>>, clock: nat, id: CandidateId)
    requires AllTracked(cs, hs, tss, clock) && id in cs
    ensures id in hs && id in tss && Tracked(id, cs[id], hs[id], tss[id], clock)
  {
    assert TrackedIn(cs, hs, tss, clock, id);
  }

  /** Every stored candidate's resume is stored as the upload path builds it. */
  predicate AllStored(cs: map<CandidateId, Candidate>, rs: map<CandidateId, ResumeParts>)
  {
    forall id :: id in cs ==> id in rs && StoredAs(id, cs[id].resume, rs[id])
  }

  /** Candidate `id` occurs in `order`. */
  predicate Listed(order: seq<CandidateId>, id: CandidateId)
  {
    id in order
  }

  /** `order` lists exactly the stored candidates, in order of creation. The
      quantifier saying every stored candidate is listed is instantiated only
      for the candidates a proof names (see ListedAt). */
  predicate InOrder(cs: map<CandidateId, Candidate>, order: seq<CandidateId>)
  {
    && (forall i :: 0 <= i < |order| ==> order[i] in cs)
    && (forall id {:trigger Listed(order, id)} :: id in cs ==> Listed(order, id))
    && (forall i, j :: 0 <= i < j < |order| ==> cs[order[i]].createdAt < cs[order[j]].createdAt)
  }

  /** A stored candidate is listed. */
  lemma ListedAt(cs: map<CandidateId, Candidate>, order: seq<CandidateId>, id: CandidateId)
    requires InOrder(cs, order) && id in cs
    ensures id in order
  {
    assert Listed(order, id);
  }

  /** No two stored candidates share an e-mail address (the column is unique). */
  predicate EmailsUnique(cs: map<CandidateId, Candidate>)
  {
    forall a, b {:trigger SharedEmail(cs, a, b)} :: a in cs && b in cs && SharedEmail(cs, a, b) ==> a == b
  }

  /** Candidates `a` and `b` are both stored and have the same e-mail address. */
  predicate SharedEmail(cs: map<CandidateId, Candidate>, a: CandidateId, b: CandidateId)
  {
    a in cs && b in cs && cs[a].email == cs[b].email
  }

  /** The histories, transitions and resume parts are kept for exactly the
      stored candidates, and every history has an entry. */
  predicate Keyed(cs: map<CandidateId, Candidate>, hs: map<CandidateId, seq<StatusChange>>,
                  tss: map<CandidateId, seq<Transition>>, rs: map<CandidateId, ResumeParts>)
  {
    && hs.Keys == cs.Keys
    && tss.Keys == cs.Keys
    && rs.Keys == cs.Keys
    && (forall id :: id in hs ==> hs[id] != [])
  }

  /** The invariant of the two tables: both are keyed by the stored
      candidates, every candidate is Tracked and its resume stored as the
      upload path builds it, `order` lists every stored candidate in order of
      creation, and e-mail addresses are unique. */
  predicate StoreInv(cs: map<CandidateId, Candidate>, hs: map<CandidateId, seq<StatusChange>>,
                     tss: map<CandidateId, seq<Transition>>, rs: map<CandidateId, ResumeParts>,
                     order: seq<CandidateId>, clock: nat)
  {
    && Keyed(cs, hs, tss, rs)
    && AllTracked(cs, hs, tss, clock)
    && AllStored(cs, rs)
    && InOrder(cs, order)
    && EmailsUnique(cs)
  }

  /** A tick of the clock keeps a candidate Tracked. */
  lemma TrackedTick(id: CandidateId, c: Candidate, h: seq<StatusChange>, ts: seq<Transition>, clock: nat)
    requires Tracked(id, c, h, ts, clock)
    ensures Tracked(id, c, h, ts, clock + 1)
  {
  }

  /** A candidate just registered at `clock`, with only its registration
      entry, is Tracked once the clock has moved on. */
  lemma TrackedInitial(id: CandidateId, c: Candidate, clock: nat)
    requires c.id == id && c.currentStatus == Submitted
    requires c.createdAt == clock && c.updatedAt == clock
    ensures Tracked(id, c, [InitialEntry(clock)], [], clock + 1)
  {
    assert Replay(clock, []) == [InitialEntry(clock)];
  }

  /** Recording a transition made at `clock`, together with the new status
      and updated_at on the row, keeps a candidate Tracked. */
  lemma TrackedRecord(id: CandidateId, c: Candidate, h: seq<StatusChange>, ts: seq<Transition>,
                      clock: nat, t: Transition)
    requires Tracked(id, c, h, ts, clock) && t.at == clock
    ensures Tracked(id, c.(currentStatus := t.status, updatedAt := clock), Record(h, t), ts + [t], clock + 1)
  {
    var ts' := ts + [t];
    assert ts'[..|ts'| - 1] == ts;
    assert Replay(c.createdAt, ts') == Record(h, t);
    forall i | 0 <= i < |ts'| ensures c.createdAt < ts'[i].at {
      if i < |ts| { assert ts'[i] == ts[i]; }
    }
    forall i, j | 0 <= i < j < |ts'| ensures ts'[i].at < ts'[j].at {
      assert ts'[i] == ts[i];
      if j < |ts| { assert ts'[j] == ts[j]; }
    }
  }

  /** Registration keeps every candidate Tracked, the new one included. */
  lemma AllTrackedAfterRegister(cs: map<CandidateId, Candidate>, hs: map<CandidateId, seq<StatusChange>>,
                                tss: map<CandidateId, seq<Transition>>, clock: nat, id: CandidateId, c: Candidate)
    requires AllTracked(cs, hs, tss, clock)
    requires c.id == id && c.currentStatus == Submitted && c.createdAt == clock && c.updatedAt == clock
    ensures AllTracked(cs[id := c], hs[id := [InitialEntry(clock)]], tss[id := []], clock + 1)
  {
    var cs', hs', tss' := cs[id := c], hs[id := [InitialEntry(clock)]], tss[id := []];
    forall k | k in cs' ensures TrackedIn(cs', hs', tss', clock + 1, k) {
      if k == id {
        TrackedInitial(id, c, clock);
      } else {
        TrackedAt(cs, hs, tss, clock, k);
        TrackedTick(k, cs[k], hs[k], tss[k], clock);
      }
    }
  }

  /** Every stored candidate was created before the clock's current reading. */
  lemma CreatedBeforeClock(cs: map<CandidateId, Candidate>, hs: map<CandidateId, seq<StatusChange>>,
                           tss: map<CandidateId, seq<Transition>>, clock: nat)
    requires AllTracked(cs, hs, tss, clock)
    ensures forall k :: k in cs ==> cs[k].createdAt < clock
  {
    forall k | k in cs ensures cs[k].createdAt < clock {
      TrackedAt(cs, hs, tss, clock, k);
    }
  }

  /** Appending a candidate created after all others keeps the order. */
  lemma InOrderAfterRegister(cs: map<CandidateId, Candidate>, order: seq<CandidateId>, clock: nat,
                             id: CandidateId, c: Candidate)
    requires InOrder(cs, order) && id !in cs && c.createdAt == clock
    requires forall k :: k in cs ==> cs[k].createdAt < clock
    ensures InOrder(cs[id := c], order + [id])
  {
    var cs', order' := cs[id := c], order + [id];
    forall i | 0 <= i < |order'| ensures order'[i] in cs' {
      if i < |order| { assert order'[i] == order[i]; }
    }
    forall k | k in cs' ensures Listed(order', k) {
      if k != id { ListedAt(cs, order, k); }
    }
    forall i, j | 0 <= i < j < |order'| ensures cs'[order'[i]].createdAt < cs'[order'[j]].createdAt {
      assert order'[i] == order[i] && order[i] in cs;
      if j < |order| {
        assert order'[j] == order[j] && order[j] in cs;
      }
    }
  }

  /** Registering a fresh candidate `c` at `clock` whose e-mail address is
      not yet taken keeps the invariant. */
  lemma InvAfterRegister(cs: map<CandidateId, Candidate>, hs: map<CandidateId, seq<StatusChange>>,
                         tss: map<CandidateId, seq<Transition>>, rs: map<CandidateId, ResumeParts>,
                         order: seq<CandidateId>, clock: nat, id: CandidateId, c: Candidate, p: ResumeParts)
    requires StoreInv(cs, hs, tss, rs, order, clock)
    requires id !in cs && c.id == id && StoredAs(id, c.resume, p) && c.currentStatus == Submitted
    requires c.createdAt == clock && c.updatedAt == clock
    requires forall k :: k in cs ==> cs[k].email != c.email
    ensures StoreInv(cs[id := c], hs[id := [InitialEntry(clock)]], tss[id := []], rs[id := p],
                     order + [id], clock + 1)
  {
    AllTrackedAfterRegister(cs, hs, tss, clock, id, c);
    CreatedBeforeClock(cs, hs, tss, clock);
    InOrderAfterRegister(cs, order, clock, id, c);
    StoredAndUniqueAfterRegister(cs, rs, id, c, p);
    KeyedAfterInsert(cs, hs, tss, rs, id, c, [InitialEntry(clock)], [], p);
  }

  /** Adding the entries of one candidate, with a history that has an
      entry, keeps the tables keyed alike. */
  lemma KeyedAfterInsert(cs: map<CandidateId, Candidate>, hs: map<CandidateId, seq<StatusChange>>,
                         tss: map<CandidateId, seq<Transition>>, rs: map<CandidateId, ResumeParts>,
                         id: CandidateId, c: Candidate, h: seq<StatusChange>, ts: seq<Transition>, p: ResumeParts)
    requires Keyed(cs, hs, tss, rs) && h != []
    ensures Keyed(cs[id := c], hs[id := h], tss[id := ts], rs[id := p])
  {
    var hs' := hs[id := h];
    forall k | k in hs' ensures hs'[k] != [] {
      if k != id { assert hs'[k] == hs[k]; }
    }
  }

  /** Adding a candidate whose resume is stored as the upload path builds it
      and whose e-mail address is not yet taken keeps resumes as stored and
      e-mail addresses unique. */
  lemma StoredAndUniqueAfterRegister(cs: map<CandidateId, Candidate>, rs: map<CandidateId, ResumeParts>,
                                     id: CandidateId, c: Candidate, p: ResumeParts)
    requires AllStored(cs, rs) && EmailsUnique(cs) && id !in cs && StoredAs(id, c.resume, p)
    requires forall k :: k in cs ==> cs[k].email != c.email
    ensures AllStored(cs[id := c], rs[id := p]) && EmailsUnique(cs[id := c])
  {
    var cs', rs' := cs[id := c], rs[id := p];
    forall k | k in cs' ensures k in rs' && StoredAs(k, cs'[k].resume, rs'[k]) {
      if k != id { assert cs'[k] == cs[k] && rs'[k] == rs[k]; }
    }
    forall a, b | SharedEmail(cs', a, b) ensures a == b {
      if a != id && b != id { assert SharedEmail(cs, a, b); }
    }
  }

  /** Recording a transition keeps every candidate Tracked. */
  lemma AllTrackedAfterUpdate(cs: map<CandidateId, Candidate>, hs: map<CandidateId, seq<StatusChange>>,
                              tss: map<CandidateId, seq<Transition>>, clock: nat, id: CandidateId, t: Transition)
    requires AllTracked(cs, hs, tss, clock) && id in cs && t.at == clock
    ensures id in hs && id in tss && hs[id] != []
    ensures AllTracked(cs[id := cs[id].(currentStatus := t.status, updatedAt := clock)],
                       hs[id := Record(hs[id], t)], tss[id := tss[id] + [t]], clock + 1)
  {
    TrackedAt(cs, hs, tss, clock, id);
    var c' := cs[id].(currentStatus := t.status, updatedAt := clock);
    var cs', hs', tss' := cs[id := c'], hs[id := Record(hs[id], t)], tss[id := tss[id] + [t]];
    forall k | k in cs' ensures TrackedIn(cs', hs', tss', clock + 1, k) {
      if k == id {
        TrackedRecord(id, cs[id], hs[id], tss[id], clock, t);
      } else {
        TrackedAt(cs, hs, tss, clock, k);
        TrackedTick(k, cs[k], hs[k], tss[k], clock);
      }
    }
  }

  /** Replacing a candidate's row by one with the same creation time keeps
      the order. */
  lemma InOrderAfterReplace(cs: map<CandidateId, Candidate>, order: seq<CandidateId>, id: CandidateId, c: Candidate)
    requires InOrder(cs, order) && id in cs && c.createdAt == cs[id].createdAt
    ensures InOrder(cs[id := c], order)
  {
    var cs' := cs[id := c];
    forall i, j | 0 <= i < j < |order| ensures cs'[order[i]].createdAt < cs'[order[j]].createdAt {
      assert cs'[order[i]].createdAt == cs[order[i]].createdAt;
      assert cs'[order[j]].createdAt == cs[order[j]].createdAt;
    }
  }

  /** Replacing a candidate's row by one with the same resume and e-mail
      address keeps resumes as stored and e-mail addresses unique. */
  lemma StoredAndUniqueAfterReplace(cs: map<CandidateId, Candidate>, rs: map<CandidateId, ResumeParts>,
                                    id: CandidateId, c: Candidate)
    requires AllStored(cs, rs) && EmailsUnique(cs) && id in cs
    requires c.resume == cs[id].resume && c.email == cs[id].email
    ensures AllStored(cs[id := c], rs) && EmailsUnique(cs[id := c])
  {
    var cs' := cs[id := c];
    forall k | k in cs' ensures k in rs && StoredAs(k, cs'[k].resume, rs[k]) {
      assert cs'[k].resume == cs[k].resume;
    }
    forall a, b | SharedEmail(cs', a, b) ensures a == b {
      assert SharedEmail(cs, a, b);
    }
  }

  /** Recording a transition made at `clock` for a stored candidate keeps
      the invariant. */
  lemma InvAfterUpdate(cs: map<CandidateId, Candidate>, hs: map<CandidateId, seq<StatusChange>>,
                       tss: map<CandidateId, seq<Transition>>, rs: map<CandidateId, ResumeParts>,
                       order: seq<CandidateId>, clock: nat, id: CandidateId, t: Transition)
    requires StoreInv(cs, hs, tss, rs, order, clock) && id in cs && t.at == clock
    ensures hs[id] != []
    ensures StoreInv(cs[id := cs[id].(currentStatus := t.status, updatedAt := clock)],
                     hs[id := Record(hs[id], t)], tss[id := tss[id] + [t]], rs, order, clock + 1)
  {
    AllTrackedAfterUpdate(cs, hs, tss, clock, id, t);
    var c' := cs[id].(currentStatus := t.status, updatedAt := clock);
    InOrderAfterReplace(cs, order, id, c');
    StoredAndUniqueAfterReplace(cs, rs, id, c');
    KeyedAfterReplace(cs, hs, tss, rs, id, c', Record(hs[id], t), tss[id] + [t]);
  }

  /** Replacing the entries of a stored candidate, with a history that has
      an entry, keeps the tables keyed alike. */
  lemma KeyedAfterReplace(cs: map<CandidateId, Candidate>, hs: map<CandidateId, seq<StatusChange>>,
                          tss: map<CandidateId, seq<Transition>>, rs: map<CandidateId, ResumeParts>,
                          id: CandidateId, c: Candidate, h: seq<StatusChange>, ts: seq<Transition>)
    requires Keyed(cs, hs, tss, rs) && id in cs && h != []
    ensures Keyed(cs[id := c], hs[id := h], tss[id := ts], rs)
  {
    var hs' := hs[id := h];
    forall k | k in hs' ensures hs'[k] != [] {
      if k != id { assert hs'[k] == hs[k]; }
    }
  }

  /** The candidates the ids name, in the order of the ids. */
  function Lookup(ids: seq<CandidateId>, m: map<CandidateId, Candidate>): (r: seq<Candidate>)
    requires forall i :: 0 <= i < |ids| ==> ids[i] in m
    ensures |r| == |ids| && forall i :: 0 <= i < |ids| ==> r[i] == m[ids[i]]
  {
    seq(|ids|, i requires 0 <= i < |ids| => m[ids[i]])
  }

  /** The reply to a successful status update. */
  datatype Updated = Updated(message: string, candidate: CandidateDetail)

  const UpdatedMessage: string := "Status updated successfully"

  /** The candidate table and its audit trail. `clock` stands for the time
      of the next write; each successful write reads it once and advances
      it, while refused requests and reads leave it alone. */
  class Store {
    /** Candidate rows by id. */
    var candidates: map<CandidateId, Candidate>
    /** Status-change rows by owning candidate, oldest first. */
    var history: map<CandidateId, seq<StatusChange>>
    /** Candidate ids in order of registration. */
    var registered: seq<CandidateId>
    var clock: nat
    /** The admin transitions applied to each candidate so far. */
    ghost var transitions: map<CandidateId, seq<Transition>>
    /** The parts each candidate's stored resume path was built from. */
    ghost var resumes: map<CandidateId, ResumeParts>

    ghost predicate Valid()
      reads this
    {
      StoreInv(candidates, history, transitions, resumes, registered, clock)
    }

    /** An empty database. */
    constructor ()
      ensures Valid()
      ensures candidates == map[] && history == map[] && registered == []
    {
      candidates := map[];
      history := map[];
      registered := [];
      clock := 0;
      transitions := map[];
      resumes := map[];
    }

    /** The e-mail addresses already registered. */
    function Emails(): (r: set<string>)
      reads this
      ensures forall e :: e in r <==> exists id :: id in candidates && candidates[id].email == e
    {
      set id | id in candidates :: candidates[id].email
    }

    /** An address that is not among the registered ones belongs to no
        stored candidate. */
    lemma EmailUnused(e: string)
      requires e !in Emails()
      ensures forall k :: k in candidates ==> candidates[k].email != e
    {
    }

    /** CandidateRegistrationView: a valid form creates a candidate in status
        SUBMITTED, with the resume stored under `resumes/<id>/<fileUuid>.<ext>`,
        and the registration entry of its history, and is answered with the
        six accepted fields, without the new identifier; an invalid one
        changes nothing and is answered with the field errors. `id` and
        `fileUuid` are the UUIDs the row and the upload path draw;
        `folderUuid` is the fallback folder's. */
    method Register(form: RegistrationForm, id: CandidateId, fileUuid: string, folderUuid: string,
                    maxUploadSize: nat)
      returns (resp: Response<map<string, ReplyValue>, map<Field, seq<Reason>>>)
      requires Valid()
      requires IsUuidText(id) && IsUuidText(fileUuid) && id !in candidates
      modifies this
      ensures Valid()
      ensures var v := ValidateRegistration(form, old(Emails()), maxUploadSize);
              v.Failure? ==> resp == BadRequest(v.error) && unchanged(this)
      ensures var v := ValidateRegistration(form, old(Emails()), maxUploadSize);
              v.Success? ==>
                var reg := v.value;
                var c := Candidate(id, reg.fullName, reg.email, reg.dateOfBirth, reg.yearsOfExperience,
                                   reg.department, ResumeUploadPath(Some(id), reg.resume.name, fileUuid, folderUuid),
                                   Submitted, old(clock), old(clock));
                && resp == Ok(CreatedBody(c))
                && candidates == old(candidates)[id := c]
                && history == old(history)[id := [InitialEntry(old(clock))]]
                && registered == old(registered) + [id]
                && clock == old(clock) + 1
    {
      var v := ValidateRegistration(form, Emails(), maxUploadSize);
      if v.Failure? {
        return BadRequest(v.error);
      }
      var reg := v.value;
      EmailUnused(reg.email);
      var resume := ResumeUploadPath(Some(id), reg.resume.name, fileUuid, folderUuid);
      ghost var parts := ResumeParts(fileUuid, AfterLast(reg.resume.name, '.'));
      StoredAsOfUpload(id, reg.resume.name, fileUuid, folderUuid);
      var c := Candidate(id, reg.fullName, reg.email, reg.dateOfBirth, reg.yearsOfExperience,
                         reg.department, resume, Submitted, clock, clock);
      AddCandidate(c, parts);
      resp := Ok(CreatedBody(c));
    }

    /** The two writes of a registration: the new row, in status SUBMITTED
        and created at the current tick, and its history holding only the
        registration entry. The row's id must be fresh, its resume stored as
        the upload path builds it, and its address unused. */
    method AddCandidate(c: Candidate, ghost parts: ResumeParts)
      requires Valid()
      requires c.id !in candidates && StoredAs(c.id, c.resume, parts)
      requires c.currentStatus == Submitted && c.createdAt == clock && c.updatedAt == clock
      requires forall k :: k in candidates ==> candidates[k].email != c.email
      modifies this
      ensures Valid()
      ensures candidates == old(candidates)[c.id := c]
      ensures history == old(history)[c.id := [InitialEntry(old(clock))]]
      ensures registered == old(registered) + [c.id]
      ensures clock == old(clock) + 1
    {
      ghost var cs0, hs0, tss0, rs0, order0, clock0 := candidates, history, transitions, resumes, registered, clock;
      candidates := candidates[c.id := c];
      history := history[c.id := [InitialEntry(clock)]];
      transitions := transitions[c.id := []];
      resumes := resumes[c.id := parts];
      registered := registered + [c.id];
      clock := clock + 1;
      ValidAfterRegister(cs0, hs0, tss0, rs0, order0, clock0, c.id, c, parts);
    }

    /** StatusUpdateView.update. A request without the admin header is
        refused, an unknown id is not found, an invalid body is answered with
        its errors, and in each of these cases nothing changes. Otherwise one
        entry is appended to the candidate's history, recording the status
        before and after, the feedback ("" when absent) and the acting admin
        ("Admin" when absent); the candidate takes the new status and the
        reply shows the updated candidate. No other candidate changes. */
    method UpdateStatus(id: CandidateId, adminHeader: Option<string>, adminUserHeader: Option<string>,
                        form: StatusUpdateForm)
      returns (resp: Response<Updated, map<UpdateField, seq<Reason>>>)
      requires Valid()
      modifies this
      ensures Valid()
      ensures !IsAdmin(adminHeader) ==> resp == Forbidden && unchanged(this)
      ensures IsAdmin(adminHeader) && id !in old(candidates) ==> resp == NotFound(NoSuchCandidate) && unchanged(this)
      ensures IsAdmin(adminHeader) && id in old(candidates) && ValidateStatusUpdate(form).Failure? ==>
                resp == BadRequest(ValidateStatusUpdate(form).error) && unchanged(this)
      ensures IsAdmin(adminHeader) && id in old(candidates) && ValidateStatusUpdate(form).Success? ==>
                var u := ValidateStatusUpdate(form).value;
                var t := Transition(u.status, FeedbackOf(u.feedback), ActorOf(adminUserHeader), old(clock));
                var c := old(candidates)[id].(currentStatus := u.status, updatedAt := old(clock));
                && history == old(history)[id := Record(old(history)[id], t)]
                && history[id][|old(history)[id]|].previousStatus == Some(old(candidates)[id].currentStatus)
                && candidates == old(candidates)[id := c]
                && registered == old(registered)
                && clock == old(clock) + 1
                && resp == Ok(Updated(UpdatedMessage, DetailOf(c, history[id])))
    {
      if !IsAdmin(adminHeader) {
        return Forbidden;
      }
      if id !in candidates {
        return NotFound(NoSuchCandidate);
      }
      var v := ValidateStatusUpdate(form);
      if v.Failure? {
        return BadRequest(v.error);
      }
      var u := v.value;
      var t := Transition(u.status, FeedbackOf(u.feedback), ActorOf(adminUserHeader), clock);
      ApplyTransition(id, t);
      resp := Ok(Updated(UpdatedMessage, DetailOf(candidates[id], history[id])));
    }

    /** The two writes of a status update: the history entry recording
        transition `t`, whose previous status is the candidate's current one,
        and the row's new status, with `updated_at` the current tick. */
    method ApplyTransition(id: CandidateId, t: Transition)
      requires Valid() && id in candidates && t.at == clock
      modifies this
      ensures Valid()
      ensures history == old(history)[id := Record(old(history)[id], t)]
      ensures history[id][|old(history)[id]|].previousStatus == Some(old(candidates)[id].currentStatus)
      ensures candidates == old(candidates)[id := old(candidates)[id].(currentStatus := t.status, updatedAt := old(clock))]
      ensures registered == old(registered)
      ensures clock == old(clock) + 1
    {
      ghost var cs0, hs0, tss0, order0, clock0 := candidates, history, transitions, registered, clock;
      HistoryFacts(id);
      var h := Record(history[id], t);
      assert h[|history[id]|].previousStatus == Some(candidates[id].currentStatus);
      history := history[id := h];
      candidates := candidates[id := candidates[id].(currentStatus := t.status, updatedAt := clock)];
      transitions := transitions[id := transitions[id] + [t]];
      clock := clock + 1;
      ValidAfterUpdate(cs0, hs0, tss0, order0, clock0, id, t);
    }

    /** The state after a registration satisfies the invariant. */
    lemma ValidAfterRegister(cs: map<CandidateId, Candidate>, hs: map<CandidateId, seq<StatusChange>>,
                             tss: map<CandidateId, seq<Transition>>, rs: map<CandidateId, ResumeParts>,
                             order: seq<CandidateId>, clock0: nat, id: CandidateId, c: Candidate, p: ResumeParts)
      requires StoreInv(cs, hs, tss, rs, order, clock0)
      requires id !in cs && c.id == id && StoredAs(id, c.resume, p) && c.currentStatus == Submitted
      requires c.createdAt == clock0 && c.updatedAt == clock0
      requires forall k :: k in cs ==> cs[k].email != c.email
      requires candidates == cs[id := c] && history == hs[id := [InitialEntry(clock0)]]
      requires transitions == tss[id := []] && resumes == rs[id := p]
      requires registered == order + [id] && clock == clock0 + 1
      ensures Valid()
    {
      InvAfterRegister(cs, hs, tss, rs, order, clock0, id, c, p);
    }

    /** The state after a status update satisfies the invariant. */
    lemma ValidAfterUpdate(cs: map<CandidateId, Candidate>, hs: map<CandidateId, seq<StatusChange>>,
                           tss: map<CandidateId, seq<Transition>>, order: seq<CandidateId>, clock0: nat,
                           id: CandidateId, t: Transition)
      requires StoreInv(cs, hs, tss, resumes, order, clock0) && id in cs && t.at == clock0
      requires hs[id] != []
      requires candidates == cs[id := cs[id].(currentStatus := t.status, updatedAt := clock0)]
      requires history == hs[id := Record(hs[id], t)] && transitions == tss[id := tss[id] + [t]]
      requires registered == order && clock == clock0 + 1
      ensures Valid()
    {
      InvAfterUpdate(cs, hs, tss, resumes, order, clock0, id, t);
    }

    /** The stored candidates in order of registration, oldest first: every
        stored candidate appears. */
    function InRegistrationOrder(): (r: seq<Candidate>)
      reads this
      requires Valid()
      ensures CandidatesOldestFirst(r)
      ensures forall c :: c in r <==> c in candidates.Values
    {
      var r := Lookup(registered, candidates);
      RegisteredCoversCandidates();
      r
    }

    /** Every stored candidate is found at its registration position. */
    lemma RegisteredCoversCandidates()
      requires Valid()
      ensures forall c :: c in Lookup(registered, candidates) <==> c in candidates.Values
    {
      var r := Lookup(registered, candidates);
      forall c | c in candidates.Values ensures c in r {
        var id :| id in candidates && candidates[id] == c;
        ListedAt(candidates, registered, id);
        var i :| 0 <= i < |registered| && registered[i] == id;
        assert r[i] == c;
      }
    }

    /** CandidateListView: admins only; exactly the stored candidates that
        pass the department filter, newest first; with no filter, or an
        empty one, all of them. */
    function ListCandidates(adminHeader: Option<string>, department: Option<string>)
      : (r: Response<seq<Candidate>, ()>)
      reads this
      requires Valid()
      ensures r.Forbidden? <==> !IsAdmin(adminHeader)
      ensures r.Ok? <==> IsAdmin(adminHeader)
      ensures r.Ok? ==> forall c :: c in r.body <==> c in candidates.Values && MatchesDepartment(c, department)
      ensures r.Ok? ==> CandidatesNewestFirst(r.body)
      ensures r.Ok? && (department.None? || department == Some("")) ==> r.body == Reverse(InRegistrationOrder())
    {
      if !IsAdmin(adminHeader) then Forbidden
      else
        var all := InRegistrationOrder();
        FilterNewestFirstOrder(all, department);
        if department.None? || department == Some("") then
          NoFilterListsAll(all, department);
          Ok(FilterNewestFirst(all, department))
        else
          Ok(FilterNewestFirst(all, department))
    }

    /** What the invariant says of one stored candidate's history: it is
        well formed, begins with the registration entry, is in time order,
        and its newest entry agrees with the row's status and updated_at. */
    lemma HistoryFacts(id: CandidateId)
      requires Valid() && id in candidates
      ensures candidates[id].id == id
      ensures Chained(history[id])
      ensures history[id][0] == InitialEntry(candidates[id].createdAt)
      ensures ChangesOldestFirst(history[id])
      ensures CurrentStatus(history[id]) == candidates[id].currentStatus
    {
      TrackedAt(candidates, history, transitions, clock, id);
      ReplayShape(candidates[id].createdAt, transitions[id]);
    }

    /** CandidateStatusView (no header needed): the candidate's detail, with
        its whole stored history newest first. The newest entry shows the current status,
        the oldest is the registration entry, and each entry's previous
        status is the next older entry's new status. */
    function StatusOf(id: CandidateId): (r: Response<CandidateDetail, ()>)
      reads this
      requires Valid()
      ensures r.NotFound? <==> id !in candidates
      ensures r.NotFound? ==> r.reason == NoSuchCandidate
      ensures r.Ok? <==> id in candidates
      ensures r.Ok? ==> r.body == DetailOf(candidates[id], history[id])
      ensures r.Ok? ==> r.body.id == id && r.body.currentStatus == candidates[id].currentStatus
      ensures r.Ok? ==> |r.body.statusChanges| == |history[id]|
      ensures r.Ok? ==> forall i :: 0 <= i < |history[id]| ==>
                          r.body.statusChanges[i] == history[id][|history[id]| - 1 - i]
      ensures r.Ok? ==> ChangesNewestFirst(r.body.statusChanges)
      ensures r.Ok? ==> var s := r.body.statusChanges;
                        && s != []
                        && s[0].newStatus == r.body.currentStatus
                        && s[|s| - 1] == InitialEntry(candidates[id].createdAt)
                        && forall i :: 0 <= i < |s| - 1 ==> s[i].previousStatus == Some(s[i + 1].newStatus)
    {
      if id !in candidates then NotFound(NoSuchCandidate)
      else
        HistoryFacts(id);
        Ok(DetailOf(candidates[id], history[id]))
    }

    /** CandidateDetailView: refused without the admin header, and otherwise
        the same reply as the public status endpoint. */
    function AdminDetail(adminHeader: Option<string>, id: CandidateId): (r: Response<CandidateDetail, ()>)
      reads this
      requires Valid()
      ensures !IsAdmin(adminHeader) <==> r == Forbidden
      ensures IsAdmin(adminHeader) ==> r == StatusOf(id)
    {
      if !IsAdmin(adminHeader) then Forbidden else StatusOf(id)
    }

    /** ResumeDownloadView.get: refused without the admin header, not found
        for an unknown id, and otherwise the download decision for the
        stored name. A stored candidate always has a resume, so the
        "no resume" reply never occurs; the file is served exactly when it
        exists on storage, and, as written, as PDF exactly when its stored
        extension is "pdf" in lower case (an accepted "PDF" goes out as DOCX). */
    function DownloadResume(adminHeader: Option<string>, id: CandidateId, fileExists: bool)
      : (r: Response<FileReply, ()>)
      reads this
      requires Valid()
      ensures r == Forbidden <==> !IsAdmin(adminHeader)
      ensures IsAdmin(adminHeader) ==> (r == NotFound(NoSuchCandidate) <==> id !in candidates)
      ensures r != NotFound(NoResume)
      ensures r.Ok? <==> IsAdmin(adminHeader) && id in candidates && fileExists
      ensures IsAdmin(adminHeader) && id in candidates && !fileExists ==> r == NotFound(NoResumeFile)
      ensures r.Ok? ==> var base := AfterLast(candidates[id].resume, '/');
                        && DispositionFileName(r.body.disposition) == Some(base)
                        && (r.body.contentType == PdfType <==> EndsWith(base, ".pdf"))
                        && r.body.contentType == if AfterLast(base, '.') == "pdf" then PdfType else DocxType
    {
      if !IsAdmin(adminHeader) then Forbidden
      else if id !in candidates then NotFound(NoSuchCandidate)
      else
        var p := resumes[id];
        JoinedBaseName("resumes/" + id, p.fileUuid, p.ext);
        AsWrittenTypeOfAcceptedExtension(p.fileUuid, p.ext);
        ResumeDownload(candidates[id].resume, fileExists)
    }

    /** The reply a registration should give: the identifier under "id" in
        the corrected 201 body is one the public status endpoint finds, and
        it shows that candidate's own status. */
    lemma CorrectedReplyFindsCandidate(id: CandidateId)
      requires Valid() && id in candidates
      ensures CreatedBodyWithId(candidates[id])["id"] == Text(id)
      ensures StatusOf(id).Ok? && StatusOf(id).body.id == id
      ensures StatusOf(id).body.currentStatus == candidates[id].currentStatus
    {
      HistoryFacts(id);
    }
  }

  /** The path an accepted upload is stored under has the shape the
      invariant asks for: its base name is `<fileUuid>.<ext>` with the
      upload's own extension, which the check accepted. */
  lemma StoredAsOfUpload(id: CandidateId, name: string, fileUuid: string, folderUuid: string)
    requires IsUuidText(id) && IsUuidText(fileUuid)
    requires ResumeExtension(name) in AllowedExtensions
    ensures StoredAs(id, ResumeUploadPath(Some(id), name, fileUuid, folderUuid),
                     ResumeParts(fileUuid, AfterLast(name, '.')))
  {
    CheckedExtensionIsStoredExtension(name);
    AfterLastFacts(name, '.');
    UuidHasNoSeparators(fileUuid);
    UploadPathShape(Some(id), name, fileUuid, folderUuid);
  }
}

=== FILE: text.dfy ===
/** String helpers standing for the few Python string and path operations the
    core uses: `str.split(c)[-1]`, `os.path.basename`, `str.lower` and
    `str.endswith`. */
module Text {

  /** The text after the last occurrence of `c` in `s`, or all of `s` when `c`
      does not occur: Python's `s.split(c)[-1]`, and `os.path.basename(s)`
      when `c` is '/'. AfterLastFacts and AfterLastUnique characterise the
      result. */
  function AfterLast(s: string, c: char): string
  {
    if s == [] then []
    else if s[|s| - 1] == c then []
    else AfterLast(s[..|s| - 1], c) + [s[|s| - 1]]
  }

  /** AfterLast returns a suffix without `c` that is either the whole string
      (when `c` does not occur) or preceded by a `c`; AfterLastUnique shows
      these facts pin it down. */
  lemma {:induction false} AfterLastFacts(s: string, c: char)
    ensures c !in AfterLast(s, c)
    ensures |AfterLast(s, c)| <= |s| && AfterLast(s, c) == s[|s| - |AfterLast(s, c)|..]
    ensures |AfterLast(s, c)| < |s| ==> s[|s| - |AfterLast(s, c)| - 1] == c
    ensures |AfterLast(s, c)| == |s| ==> c !in s
  {
    if s != [] && s[|s| - 1] != c {
      var init := s[..|s| - 1];
      AfterLastFacts(init, c);
      var r := AfterLast(init, c);
      assert AfterLast(s, c) == r + [s[|s| - 1]];
      assert s == init + [s[|s| - 1]];
    }
  }

  /** Whatever follows the last separator is what AfterLast returns. */
  lemma {:induction false} AfterLastUnique(p: string, c: char, q: string)
    requires c !in q
    ensures AfterLast(p + [c] + q, c) == q
  {
    if q != [] {
      var s := p + [c] + q;
      assert s[..|s| - 1] == p + [c] + q[..|q| - 1];
      assert s[|s| - 1] == q[|q| - 1];
      AfterLastUnique(p, c, q[..|q| - 1]);
      assert q == q[..|q| - 1] + [q[|q| - 1]];
    } else {
      var s := p + [c] + q;
      assert s[|s| - 1] == c;
    }
  }

  /** A prefix does not change what follows the last separator, as long as
      the separator occurs after the prefix. */
  lemma {:induction false} AfterLastPrefix(p: string, q: string, c: char)
    requires c in q
    ensures AfterLast(p + q, c) == AfterLast(q, c)
  {
    AfterLastFacts(q, c);
    var k := |q| - |AfterLast(q, c)| - 1;
    assert q == q[..k] + [c] + AfterLast(q, c);
    assert p + q == (p + q[..k]) + [c] + AfterLast(q, c);
    AfterLastUnique(p + q[..k], c, AfterLast(q, c));
    AfterLastUnique(q[..k], c, AfterLast(q, c));
  }

  /** A string is what precedes its last `c`-separated part, followed by that part. */
  lemma AfterLastSplits(s: string, c: char)
    ensures |AfterLast(s, c)| <= |s| && s == s[..|s| - |AfterLast(s, c)|] + AfterLast(s, c)
  {
    AfterLastFacts(s, c);
  }

  /** When the part after the last `c` contains a `d`, the part after the
      last `d` lies inside it: '.'-splitting a path's base name gives the
      same extension as '.'-splitting the whole path. */
  lemma AfterLastNested(s: string, c: char, d: char)
    requires d in AfterLast(s, c)
    ensures AfterLast(s, d) == AfterLast(AfterLast(s, c), d)
  {
    var q := AfterLast(s, c);
    AfterLastSplits(s, c);
    var p := s[..|s| - |q|];
    AfterLastPrefix(p, q, d);
    assert p + q == s;
  }

  /** When the part after the last `c` is shorter than the string, `c` occurs. */
  lemma SeparatorOccurs(s: string, c: char)
    requires |AfterLast(s, c)| < |s|
    ensures c in s
  {
    AfterLastFacts(s, c);
  }

  /** The part after the last `d` holds no character the whole string lacks. */
  lemma AfterLastKeepsAbsence(s: string, d: char, x: char)
    requires x !in s
    ensures x !in AfterLast(s, d)
  {
    var r := AfterLast(s, d);
    AfterLastFacts(s, d);
    forall i | 0 <= i < |r| ensures r[i] != x {
      assert r[i] == s[|s| - |r| + i];
    }
  }

  /** ASCII lower-casing of one character. */
  function LowerChar(ch: char): (r: char)
    ensures 'A' <= ch <= 'Z' ==> 'a' <= r <= 'z'
    ensures !('A' <= ch <= 'Z') ==> r == ch
  {
    if 'A' <= ch <= 'Z' then (ch as int + 32) as char else ch
  }

  /** ASCII lower-casing of a string, character by character. */
  function Lower(s: string): (r: string)
    ensures |r| == |s|
    ensures forall i :: 0 <= i < |s| ==> r[i] == LowerChar(s[i])
  {
    seq(|s|, i requires 0 <= i < |s| => LowerChar(s[i]))
  }

  lemma LowerAppend(a: string, b: string)
    ensures Lower(a + b) == Lower(a) + Lower(b)
  {
    assert forall i :: 0 <= i < |a + b| ==> Lower(a + b)[i] == (Lower(a) + Lower(b))[i];
  }

  /** Python's `s.endswith(suffix)`. */
  predicate EndsWith(s: string, suffix: string)
  {
    |suffix| <= |s| && s[|s| - |suffix|..] == suffix
  }

  /** Lower-casing keeps a suffix that is already in lower case. */
  lemma LowerKeepsLowerSuffix(s: string, suffix: string)
    requires EndsWith(s, suffix) && Lower(suffix) == suffix
    ensures EndsWith(Lower(s), suffix)
  {
    var stem := s[..|s| - |suffix|];
    assert s == stem + suffix;
    LowerAppend(stem, suffix);
  }

  /** Equal strings with a common prefix and suffix have the same middle. */
  lemma SameMiddle(p: string, a: string, b: string, t: string)
    requires p + a + t == p + b + t
    ensures a == b
  {
    var s := p + a + t;
    assert |a| == |b|;
    assert a == s[|p|..|p| + |a|];
    assert b == (p + b + t)[|p|..|p| + |b|];
  }
}

=== FILE: views.dfy ===
/** The decision logic of equavu_hr_app/views.py that computes values rather
    than changing state: the admin check, the request defaults of a status
    update, the department filter of the candidate list, and the resume
    download reply. */
module Views {
  import opened Wrappers
  import opened Text
  import opened Models
  import opened Serializers

  /** Why a request was answered 404. */
  datatype NotFoundReason = NoSuchCandidate | NoResume | NoResumeFile

  /** An endpoint's reply: 403, 404, 400 with field errors, or 200/201 with a body. */
  datatype Response<T, E> = Forbidden | NotFound(reason: NotFoundReason) | BadRequest(errors: E) | Ok(body: T)

  /** IsAdmin.has_permission: the X-ADMIN header is present and exactly "1". */
  predicate IsAdmin(adminHeader: Option<string>)
  {
    adminHeader == Some("1")
  }

  /** The admin gate opens for one header value only: "1". A request
      without the header is refused, and so are look-alike values such as
      "true", "01" or "1 ". */
  lemma AdminGate(adminHeader: Option<string>)
    ensures IsAdmin(adminHeader) <==> adminHeader.Some? && adminHeader.value == "1"
    ensures !IsAdmin(None) && !IsAdmin(Some("")) && !IsAdmin(Some("true"))
    ensures !IsAdmin(Some("01")) && !IsAdmin(Some("1 "))
  {
  }

  /** The acting admin recorded on a transition: the X-ADMIN-USER header, or
      "Admin" when the request does not carry it. */
  function ActorOf(adminUserHeader: Option<string>): string
  {
    adminUserHeader.GetOr("Admin")
  }

  /** The feedback recorded on a transition: as sent, or "" when absent. */
  function FeedbackOf(feedback: Option<string>): string
  {
    feedback.GetOr("")
  }

  /** The request defaults of a status update: an absent feedback is
      recorded as "", an absent acting admin as "Admin", and a value that is
      sent, even an empty one, is recorded as sent. */
  lemma UpdateDefaults(feedback: Option<string>, adminUserHeader: Option<string>)
    ensures FeedbackOf(feedback) == (if feedback.Some? then feedback.value else "")
    ensures ActorOf(adminUserHeader) == (if adminUserHeader.Some? then adminUserHeader.value else "Admin")
    ensures FeedbackOf(None) == "" && ActorOf(None) == "Admin"
  {
  }

  /** Whether a candidate passes the list's department filter: an absent or
      empty filter lets everyone through; otherwise the candidate's stored
      department value must equal the filter. */
  predicate MatchesDepartment(c: Candidate, department: Option<string>)
  {
    department.None? || department.value == "" || DepartmentValue(c.department) == department.value
  }

  /** CandidateListView.get_queryset with the list's '-created_at' order,
      applied to the candidates in registration order: exactly the
      candidates that pass the filter, each once, newest first. */
  function FilterNewestFirst(cs: seq<Candidate>, department: Option<string>): (r: seq<Candidate>)
    ensures forall c :: c in r <==> c in cs && MatchesDepartment(c, department)
    ensures |r| <= |cs|
  {
    if cs == [] then []
    else
      var last := cs[|cs| - 1];
      var rest := FilterNewestFirst(cs[..|cs| - 1], department);
      assert cs == cs[..|cs| - 1] + [last];
      if MatchesDepartment(last, department) then [last] + rest else rest
  }

  /** Candidates kept in registration order, oldest first, come out of the
      filter newest first. */
  lemma {:induction false} FilterNewestFirstOrder(cs: seq<Candidate>, department: Option<string>)
    requires CandidatesOldestFirst(cs)
    ensures CandidatesNewestFirst(FilterNewestFirst(cs, department))
  {
    if cs != [] {
      var init := cs[..|cs| - 1];
      var last := cs[|cs| - 1];
      OldestFirstBefore(cs);
      FilterNewestFirstOrder(init, department);
      var rest := FilterNewestFirst(init, department);
      if MatchesDepartment(last, department) {
        NewestFirstCons(last, rest);
      }
    }
  }

  /** Dropping the newest candidate keeps the rest oldest first, all of them
      created before it. */
  lemma OldestFirstBefore(cs: seq<Candidate>)
    requires CandidatesOldestFirst(cs) && cs != []
    ensures CandidatesOldestFirst(cs[..|cs| - 1])
    ensures forall c :: c in cs[..|cs| - 1] ==> c.createdAt < cs[|cs| - 1].createdAt
  {
    var init := cs[..|cs| - 1];
    forall i, j | 0 <= i < j < |init| ensures init[i].createdAt < init[j].createdAt {
      assert init[i] == cs[i] && init[j] == cs[j];
    }
    forall c | c in init ensures c.createdAt < cs[|cs| - 1].createdAt {
      var k :| 0 <= k < |init| && init[k] == c;
      assert cs[k] == c;
    }
  }

  /** A candidate created after all of a newest-first list may go in front. */
  lemma NewestFirstCons(c: Candidate, cs: seq<Candidate>)
    requires CandidatesNewestFirst(cs)
    requires forall d :: d in cs ==> d.createdAt < c.createdAt
    ensures CandidatesNewestFirst([c] + cs)
  {
    var r := [c] + cs;
    forall i, j | 0 <= i < j < |r| ensures r[i].createdAt > r[j].createdAt {
      assert r[j] == cs[j - 1] && cs[j - 1] in cs;
      if i > 0 { assert r[i] == cs[i - 1]; }
    }
  }

  /** Without a department filter, or with an empty one, the list holds
      every candidate, newest first. */
  lemma {:induction false} NoFilterListsAll(cs: seq<Candidate>, department: Option<string>)
    requires department.None? || department == Some("")
    ensures FilterNewestFirst(cs, department) == Reverse(cs)
  {
    if cs != [] {
      NoFilterListsAll(cs[..|cs| - 1], department);
      assert Reverse(cs) == [cs[|cs| - 1]] + Reverse(cs[..|cs| - 1]);
    }
  }

  /** A department filter that is not a department value lists nobody. */
  lemma {:induction false} UnknownDepartmentListsNone(cs: seq<Candidate>, department: string)
    requires department != "" && department !in DepartmentValues
    ensures FilterNewestFirst(cs, Some(department)) == []
  {
    if cs != [] {
      UnknownDepartmentListsNone(cs[..|cs| - 1], department);
      var last := cs[|cs| - 1];
      assert DepartmentValue(last.department) != department;
    }
  }

  const PdfType: string := "application/pdf"
  const DocxType: string := "application/vnd.openxmlformats-officedocument.wordprocessingml.document"

  /** The content type the download view picks, as written: PDF when the
      base name ends with ".pdf" in exactly that case, DOCX otherwise. */
  function ContentTypeAsWritten(fileName: string): (t: string)
    ensures t == PdfType <==> EndsWith(fileName, ".pdf")
    ensures t == DocxType <==> !EndsWith(fileName, ".pdf")
  {
    if EndsWith(fileName, ".pdf") then PdfType else DocxType
  }

  /** The content type with the extension compared regardless of case, as
      the upload's extension check compares it. */
  function ContentType(fileName: string): (t: string)
    ensures t == PdfType <==> EndsWith(Lower(fileName), ".pdf")
    ensures t == DocxType <==> !EndsWith(Lower(fileName), ".pdf")
  {
    if EndsWith(Lower(fileName), ".pdf") then PdfType else DocxType
  }

  /** The two choices differ only on names whose extension is not in lower
      case: on every name that lower-casing leaves alone they agree, and a
      name the written test calls PDF is PDF for the corrected one too. */
  lemma ContentTypeAgreesOnLowerCase(fileName: string)
    ensures Lower(fileName) == fileName ==> ContentType(fileName) == ContentTypeAsWritten(fileName)
    ensures ContentTypeAsWritten(fileName) == PdfType ==> ContentType(fileName) == PdfType
  {
    if EndsWith(fileName, ".pdf") {
      assert Lower(".pdf") == ".pdf";
      LowerKeepsLowerSuffix(fileName, ".pdf");
    }
  }

  /** The Content-Disposition header for a file name. */
  function Disposition(fileName: string): string
  {
    "attachment; filename=\"" + fileName + "\""
  }

  const DispositionPrefix: string := "attachment; filename=\""

  /** The file name a Content-Disposition header of that shape announces. */
  function DispositionFileName(header: string): Option<string>
  {
    var n := |DispositionPrefix|;
    if |header| > n && header[..n] == DispositionPrefix && header[|header| - 1] == '"'
    then Some(header[n..|header| - 1])
    else None
  }

  /** The header announces exactly the file name it was built from. */
  lemma DispositionRoundTrip(fileName: string)
    ensures DispositionFileName(Disposition(fileName)) == Some(fileName)
  {
    var h := Disposition(fileName);
    var n := |DispositionPrefix|;
    assert h == DispositionPrefix + fileName + "\"";
    assert h[..n] == DispositionPrefix;
    assert h[n..|h| - 1] == fileName;
  }

  /** A file the download streams: its content type and disposition. */
  datatype FileReply = FileReply(contentType: string, disposition: string)

  /** ResumeDownloadView.get once the candidate is found, as written: 404
      when the candidate has no resume, 404 when the stored file is missing,
      and otherwise the file under its base name, typed PDF exactly when that
      name ends with ".pdf" in lower case. Whether the stored file exists is
      an input. */
  function ResumeDownload(resumeName: string, fileExists: bool): (r: Response<FileReply, ()>)
    ensures r == NotFound(NoResume) <==> resumeName == ""
    ensures r == NotFound(NoResumeFile) <==> resumeName != "" && !fileExists
    ensures r.Ok? <==> resumeName != "" && fileExists
    ensures r.Ok? ==> DispositionFileName(r.body.disposition) == Some(AfterLast(resumeName, '/'))
    ensures r.Ok? ==> (r.body.contentType == PdfType <==> EndsWith(AfterLast(resumeName, '/'), ".pdf"))
    ensures r.Ok? ==> r.body.contentType in {PdfType, DocxType}
  {
    if resumeName == "" then NotFound(NoResume)
    else if !fileExists then NotFound(NoResumeFile)
    else
      var base := AfterLast(resumeName, '/');
      DispositionRoundTrip(base);
      Ok(FileReply(ContentTypeAsWritten(base), Disposition(base)))
  }

  /** The download with the corrected content type: the same reply, except
      that the file is typed PDF exactly when its base name ends with ".pdf"
      in any case. */
  function CorrectedResumeDownload(resumeName: string, fileExists: bool): (r: Response<FileReply, ()>)
    ensures r.Ok? <==> ResumeDownload(resumeName, fileExists).Ok?
    ensures !r.Ok? ==> r == ResumeDownload(resumeName, fileExists)
    ensures r.Ok? ==> r.body.disposition == ResumeDownload(resumeName, fileExists).body.disposition
    ensures r.Ok? ==> (r.body.contentType == PdfType <==> EndsWith(Lower(AfterLast(resumeName, '/')), ".pdf"))
    ensures r.Ok? ==> r.body.contentType in {PdfType, DocxType}
  {
    match ResumeDownload(resumeName, fileExists)
    case Ok(reply) => Ok(reply.(contentType := ContentType(AfterLast(resumeName, '/'))))
    case other => other
  }

  /** As written, `<uuid>.<ext>` with an accepted extension is typed PDF
      only when the extension is exactly "pdf"; "PDF" or "Pdf" give DOCX. */
  lemma AsWrittenTypeOfAcceptedExtension(fileUuid: string, ext: string)
    requires Lower(ext) in AllowedExtensions && '.' !in ext
    ensures ContentTypeAsWritten(fileUuid + "." + ext) == if ext == "pdf" then PdfType else DocxType
  {
    var base := fileUuid + "." + ext;
    assert base[|base| - |ext|..] == ext;
    if |ext| == 3 {
      assert base[|base| - 4..] == "." + ext;
    } else {
      assert base[|base| - 4..] == ext;
      assert ext[0] != '.';
    }
  }

  /** With the corrected test, the content type of `<uuid>.<ext>` for an
      accepted extension is PDF for "pdf" in any case, DOCX for "docx" in
      any case. */
  lemma ContentTypeOfAcceptedExtension(fileUuid: string, ext: string)
    requires Lower(ext) in AllowedExtensions
    ensures ContentType(fileUuid + "." + ext) == if Lower(ext) == "pdf" then PdfType else DocxType
  {
    var base := fileUuid + "." + ext;
    LowerAppend(fileUuid + ".", ext);
    var lowered := Lower(base);
    assert lowered == Lower(fileUuid + ".") + Lower(ext);
    assert Lower(fileUuid + ".")[|fileUuid|] == '.';
    if Lower(ext) == "pdf" {
      assert lowered[|lowered| - 4..] == ".pdf";
    } else {
      assert lowered[|lowered| - 4..] == "docx";
    }
  }

  /** An accepted resume is served with the content type of the extension
      it was accepted for: stored under the candidate's folder as
      `<fileUuid>.<ext>`, it comes back as PDF exactly when it was accepted
      as a pdf, as DOCX when it was accepted as a docx, and under its stored
      base name. */
  lemma AcceptedResumeServedWithItsType(id: CandidateId, upload: Upload, fileUuid: string,
                                        freshFolder: string, maxUploadSize: nat)
    requires ResumeErrors(Some(upload), maxUploadSize) == []
    requires id != "" && '/' !in fileUuid
    ensures var stored := ResumeUploadPath(Some(id), upload.name, fileUuid, freshFolder);
            var base := fileUuid + "." + AfterLast(upload.name, '.');
            CorrectedResumeDownload(stored, true)
              == Ok(FileReply(if ResumeExtension(upload.name) == "pdf" then PdfType else DocxType,
                              Disposition(base)))
  {
    var ext := AfterLast(upload.name, '.');
    CheckedExtensionIsStoredExtension(upload.name);
    UploadPathShape(Some(id), upload.name, fileUuid, freshFolder);
    ContentTypeOfAcceptedExtension(fileUuid, ext);
  }

  /** An accepted resume as the download serves it, as written: under its
      stored base name `<fileUuid>.<ext>`, and as PDF only when the upload's
      extension was exactly "pdf". */
  lemma AcceptedResumeServedAsWritten(id: CandidateId, upload: Upload, fileUuid: string,
                                      freshFolder: string, maxUploadSize: nat)
    requires ResumeErrors(Some(upload), maxUploadSize) == []
    requires id != "" && '/' !in fileUuid
    ensures var stored := ResumeUploadPath(Some(id), upload.name, fileUuid, freshFolder);
            var ext := AfterLast(upload.name, '.');
            ResumeDownload(stored, true)
              == Ok(FileReply(if ext == "pdf" then PdfType else DocxType, Disposition(fileUuid + "." + ext)))
  {
    var ext := AfterLast(upload.name, '.');
    CheckedExtensionIsStoredExtension(upload.name);
    AfterLastFacts(upload.name, '.');
    UploadPathShape(Some(id), upload.name, fileUuid, freshFolder);
    AsWrittenTypeOfAcceptedExtension(fileUuid, ext);
  }

  /** The discrepancy as written: an upload named "CV.PDF" passes the
      extension check (which lower-cases), is stored as `<uuid>.PDF`, and the
      download's case-sensitive ".pdf" test then serves it as a DOCX file. */
  lemma UpperCasePdfServedAsDocx(id: CandidateId, fileUuid: string, freshFolder: string)
    requires id != "" && '/' !in fileUuid
    ensures ResumeErrors(Some(Upload("CV.PDF", 1)), 1) == []
    ensures ResumeExtension("CV.PDF") == "pdf"
    ensures ResumeDownload(ResumeUploadPath(Some(id), "CV.PDF", fileUuid, freshFolder), true)
            == Ok(FileReply(DocxType, Disposition(fileUuid + ".PDF")))
  {
    UpperCaseUploadAccepted();
    var ext := AfterLast("CV.PDF", '.');
    assert ext != "pdf" by { assert ext[0] == 'P'; }
    assert fileUuid + "." + ext == fileUuid + ".PDF";
    AcceptedResumeServedAsWritten(id, Upload("CV.PDF", 1), fileUuid, freshFolder, 1);
  }

  /** "CV.PDF" has the extension "PDF", which the check reads as "pdf". */
  lemma UpperCaseUploadAccepted()
    ensures AfterLast("CV.PDF", '.') == "PDF"
    ensures ResumeExtension("CV.PDF") == "pdf"
    ensures ResumeErrors(Some(Upload("CV.PDF", 1)), 1) == []
  {
    AfterLastUnique("CV", '.', "PDF");
    assert "CV" + ['.'] + "PDF" == "CV.PDF";
    assert NameExtension("CV.PDF") == "PDF";
    assert Lower("PDF") == "pdf";
  }
}

=== FILE: wrappers.dfy ===
/** Option and Result, the shapes used for absent request fields and for
    operations that either succeed or report errors. */
module Wrappers {

  datatype Option<+T> = None | Some(value: T) {
    /** The value, or `default` when absent (Python's `dict.get(key, default)`). */
    function GetOr(default: T): T {
      match this
      case Some(v) => v
      case None => default
    }
  }

  datatype Result<+R, +E> = Success(value: R) | Failure(error: E)
}
